=== FILE: README.md ===
# Beat the Bird — game logic in Dafny

A model of the betting core of *Beat the Bird*, a libGDX wheel-of-fortune
game. The player starts with 100 diamonds held as ten coins of ten. Clicking
a betting spot moves coins between the player's inventory and that spot.
Clicking the wheel spins it. When the wheel comes to rest, every spot on the
landed value pays its stake times the value plus the stake back. Then all
stakes are cleared.

The model uses values throughout. An `Inventory` is a name, an integer
`total` and an ordered sequence of coin children. A `BetSpot` is an
inventory plus the value it pays on. A `Wheel` is an angle, a speed, a
slowdown factor and a spinning flag. A `GameState` holds the player, the
ordered bet list and the wheel. Each Java method that mutates objects
becomes a function that returns the new values.

Modules, following the Java classes:

- `JavaArith`: the Java semantics the logic depends on.
  - The 32-bit `int` range.
  - `Math.abs` on `int`, including `Math.abs(Integer.MIN_VALUE) == Integer.MIN_VALUE`.
  - `int` division, which truncates toward zero.
  - The `(int)` cast and `%` on `double`.
- `Wrappers`: `Option`, for results where Java would throw.
- `GameInterface`: the wheel's sector table and geometry constants.
- `Inventories` (`Inventory.java`):
  - the coin-only `addActor`/`removeActor` filter and `getCoin`;
  - `addCoins`, `addTotal` and `setTotal`;
  - `transferCoin`. It is split into the loop between two distinct
    inventories (`Move`, `Push`, `TransferCoin`) and the loop of an inventory
    with itself (`RotateCoin`, `MoveWithin`, `TransferCoinToSelf`). Aliasing
    has to be made explicit in a value model.
- `BetSpots` (`BetSpot.java`): `spotValue` and `getWinnings`.
- `BetLogic` (`BetLogic.java`): `calculateWinnings` and `clearBets`.
- `Wheels` (`WheelActor.java`):
  - `spin(int)`, `spin()`, `stop` and `getSpot`;
  - the state and decay part of `act`;
  - `isSpinning`, which is the `spinning` field of `Wheel`.
- `GameMain` (`GameMain.java`):
  - the state built by `create`/`createActors`;
  - `wheelLanded`;
  - `registerBet`. Its hit-test result is a parameter (`Hit`): the player's
    inventory, a spot given by its position in the bet list, or an actor
    that is not an inventory.
  - the per-frame step, where the wheel acts and a landing is paid out.

How Java exceptions are modelled:

- `transferCoin` can call `getCoin(0)` on a funded inventory that has no
  children. That case ends the transfer with the outcome `Thrown`.
- `getSpot` can index outside the sector table for some negative angles.
  That case returns `None`, and the frame reports `SpotFault`.
- The game-level steps return `None` when an exception would escape.
- The predicate `GameMain.Sound` holds for the state after start-up, and
  every step keeps it. In a `Sound` state none of these exceptions can occur.

The player's inventory is named `"Player"`, but `registerBet` refuses only
targets named `"player"`. A click on the player's own inventory therefore
reaches `transferCoin` of that inventory with itself
(`GameMain.OwnInventoryReachesTransfer`). From a `Sound` state, that
self-transfer rotates coins that are all tens and so changes nothing
(`GameMain.OwnInventoryClickChangesNothing`). The documented promise holds:
a bet on one's own inventory leaves the state unchanged.

Two details of the code fix behaviour that is easy to misread:

- `getSpot` returns the numbered sector value when the fractional part of
  the sector position is below the yellow threshold, and 1 otherwise
  (`WheelActor.java:164`).
- `spin()` draws its speed with `MathUtils.random(500, 1000)`, which
  includes both bounds (`WheelActor.java:132`).

## Model

| member | source | states |
|---|---|---|
| JavaArith.JavaAbs | core/src/com/martipops/beatthebird/Inventory.java:100 | `Math.abs` on an `int`: the magnitude for every value except `Integer.MIN_VALUE`, which is returned unchanged |
| JavaArith.JavaDiv | core/src/com/martipops/beatthebird/Inventory.java:135 | `amt / 10` on `int` truncates toward zero: the quotient bounds `amt` from below for non-negative `amt` and from above for negative `amt` |
| JavaArith.Trunc | core/src/com/martipops/beatthebird/WheelActor.java:164 | the `(int)` cast of a `double` truncates toward zero, for positive and negative values alike |
| JavaArith.FMod | core/src/com/martipops/beatthebird/WheelActor.java:160-164 | `%` on `double`: the dividend minus the remainder is a whole multiple of the modulus, and the remainder has the dividend's sign and a magnitude below the modulus |
| JavaArith.FModPeriodic | core/src/com/martipops/beatthebird/WheelActor.java:160 | on non-negative angles, a whole extra turn leaves the remainder by 360 unchanged |
| JavaArith.FracOfNonNegative | core/src/com/martipops/beatthebird/WheelActor.java:164 | on non-negative positions the cast is the floor and `loc % 1` is the fractional part |
| GameInterface.WheelSpotsShape | core/src/com/martipops/beatthebird/GameInterface.java:21 | the sector table has 13 entries, each one of 3, 5, 10 or 20 |
| GameInterface.SectorGeometry | core/src/com/martipops/beatthebird/GameInterface.java:26-47 | the yellow threshold is 12/25, a turn holds 12 + 13/25 sectors (fewer than the table's 13), and a sector spans 9000/313 degrees |
| Inventories.NewInventory | core/src/com/martipops/beatthebird/Inventory.java:24-44 | a new inventory, once named, holds a total of 0 and no coins, so its total is backed |
| Inventories.AddActor | core/src/com/martipops/beatthebird/Inventory.java:53-61 | a coin becomes the new last child, with the earlier children untouched; any other actor is ignored; the total never changes |
| Inventories.RemoveFirst | core/src/com/martipops/beatthebird/Inventory.java:75 | removing an absent coin changes nothing, and a coin that is the first child is the one removed |
| Inventories.RemoveFirstMultiset | core/src/com/martipops/beatthebird/Inventory.java:75 | removal takes away exactly one copy of the coin when it is held |
| Inventories.RemoveActor | core/src/com/martipops/beatthebird/Inventory.java:71-80 | the answer is `true` exactly for a coin actor, whether or not it was a child; a coin loses one copy from the children; other actors leave the inventory as it was |
| Inventories.RemoveUndoesAdd | core/src/com/martipops/beatthebird/Inventory.java:53-80 | removing a coin just added gives back the same coins, and the very same inventory when no equal coin was held before |
| Inventories.GetCoin | core/src/com/martipops/beatthebird/Inventory.java:89-91 | a coin is returned exactly for an index inside the child list, and it is the child at that index; `None` stands for the out-of-range lookup that throws |
| Inventories.AddCoins | core/src/com/martipops/beatthebird/Inventory.java:144-149 | `numCoins` new tens (none when it is not positive) are appended after the existing coins, which are kept; total and name are kept |
| Inventories.AddCoinsLoop | core/src/com/martipops/beatthebird/Inventory.java:144-149 | the loop of one `addActor` per iteration keeps the name, the total and the existing coins in front, and adds one child per positive iteration |
| Inventories.AddCoinsIsLoop | core/src/com/martipops/beatthebird/Inventory.java:144-149 | adding the tens at once equals the loop of one `addActor` per iteration |
| Inventories.AddTotal | core/src/com/martipops/beatthebird/Inventory.java:133-137 | the total rises by `amt`; the old coins stay in front; the new coins are tens, as many as whole tens in a non-negative `amt`, and none for a negative `amt` |
| Inventories.AddTotalSlack | core/src/com/martipops/beatthebird/Inventory.java:133-137 | the unbacked part of the total grows by the last digit of a non-negative `amt` and by all of a negative one; tens stay tens |
| Inventories.SetTotal | core/src/com/martipops/beatthebird/Inventory.java:121-125 | the total becomes `value` and the old coins are discarded; the new coins are tens, as many as whole tens in `value`, and none when it is negative |
| Inventories.SetTotalOverrides | core/src/com/martipops/beatthebird/Inventory.java:121-125 | only the last `setTotal` counts: setting `a` then `b` is the same as setting `b` |
| Inventories.SetTotalBacked | core/src/com/martipops/beatthebird/Inventory.java:121-125 | a total that is a whole number of tens is exactly backed by `value / 10` coins of ten |
| Inventories.ShiftCoin | core/src/com/martipops/beatthebird/Inventory.java:107-111 | one iteration keeps both names and only moves value between the two totals |
| Inventories.ShiftCoinIsRemoveThenAdd | core/src/com/martipops/beatthebird/Inventory.java:107-111 | one iteration's effect is the loop body: debit the source, credit the target, remove the coin from the source and add it to the target |
| Inventories.Move | core/src/com/martipops/beatthebird/Inventory.java:101-113 | the loop keeps both names, and a non-positive iteration count completes with nothing moved |
| Inventories.MoveConservesValue | core/src/com/martipops/beatthebird/Inventory.java:101-112 | whatever the outcome, the two totals keep their sum and each side keeps the part of its total that no coin represents |
| Inventories.MoveConservesCoins | core/src/com/martipops/beatthebird/Inventory.java:101-112 | whatever the outcome, coins change owner but none is created or lost, and inventories of tens stay inventories of tens |
| Inventories.MoveConservesCoinsMirrored | core/src/com/martipops/beatthebird/Inventory.java:101-112 | the same conservation of coins, with the target's coins counted first, as the mirrored branch of `transferCoin` reports them |
| Inventories.MoveShiftsPrefix | core/src/com/martipops/beatthebird/Inventory.java:101-112 | the coins moved are the source's first coins, appended in the same order behind the target's coins |
| Inventories.MoveCompletedCount | core/src/com/martipops/beatthebird/Inventory.java:101-113 | a loop that completes moved exactly as many coins as it had iterations |
| Inventories.MoveStopsOnlyWhen | core/src/com/martipops/beatthebird/Inventory.java:105-107 | a refusal leaves the source below one coin's value; a throw happens only to a source with at least ten and no child; either way it stops before the count is reached |
| Inventories.MoveKeepsSourceNonNegative | core/src/com/martipops/beatthebird/Inventory.java:105-108 | a source of tens that starts non-negative never goes negative, because funds are checked before each debit |
| Inventories.MoveTargetGains | core/src/com/martipops/beatthebird/Inventory.java:109-111 | when the source holds only tens, the target's total never decreases |
| Inventories.MoveFundsOutcome | core/src/com/martipops/beatthebird/Inventory.java:101-113 | for a source of tens with less than ten unbacked, the loop completes when the source holds enough coins; otherwise it is refused after moving every coin; it never throws |
| Inventories.MoveFunds | core/src/com/martipops/beatthebird/Inventory.java:101-113 | for such a source, `10 * n <= total` decides the outcome up front. On success exactly `n` coins and `10 * n` move. On refusal the partial transfer moves every coin and all their value |
| Inventories.Push | core/src/com/martipops/beatthebird/Inventory.java:101-113 | the loop in one direction: totals keep their sum, coins only change owner, the moved coins are a prefix of the source, and a completed loop moved exactly its count; a loop that refuses or throws moved fewer coins than its count; a refusal leaves the source below ten, and a throw happens only to a funded source without coins |
| Inventories.TransferCoin | core/src/com/martipops/beatthebird/Inventory.java:99-114 | between distinct inventories a negative amount moves coins out of `this` and a positive one into it. Amount 0 does nothing. A completed transfer moved exactly `abs(amount)` coins, and a refused or thrown one moved fewer; a refusal left the source below ten; a throw happens only when the source has at least ten and no coin. Value and coins are conserved |
| Inventories.TransferDirection | core/src/com/martipops/beatthebird/Inventory.java:103-104 | the direction is carried by the sign alone: pulling `n` into `inv` is pushing `n` out of `dest` |
| Inventories.TransferOfMinInt | core/src/com/martipops/beatthebird/Inventory.java:100-101 | an amount of `Integer.MIN_VALUE` runs no iteration and reports success with nothing moved |
| Inventories.TransferKeepsNonNegative | core/src/com/martipops/beatthebird/Inventory.java:99-114 | inventories of tens with non-negative totals keep non-negative totals through a transfer in either direction |
| Inventories.TransferThenReturn | core/src/com/martipops/beatthebird/Inventory.java:99-114 | between backed inventories, pushing `n` held coins and pulling `n` back completes both times and restores both inventories exactly |
| Inventories.RotateCoin | core/src/com/martipops/beatthebird/Inventory.java:107-111 | one iteration on an inventory with itself moves the first coin to the back and leaves the total as it was |
| Inventories.RotateKeepsCoins | core/src/com/martipops/beatthebird/Inventory.java:107-111 | that iteration keeps the same coins and their value, and changes nothing at all on an inventory of tens |
| Inventories.MoveWithin | core/src/com/martipops/beatthebird/Inventory.java:101-113 | the loop on an inventory with itself never changes its total. It is refused exactly when the total is below ten, and it throws exactly when the inventory is funded but has no coin |
| Inventories.MoveWithinKeepsCoins | core/src/com/martipops/beatthebird/Inventory.java:101-112 | that loop only reorders the coins, and leaves an inventory of tens exactly as it was |
| Inventories.TransferCoinToSelf | core/src/com/martipops/beatthebird/Inventory.java:99-114 | `inv.transferCoin(inv, amount)` keeps the total and the coins and throws only on a funded inventory without coins. Amounts 0 and `Integer.MIN_VALUE` do nothing. An inventory of tens is left unchanged |
| BetSpots.NewBetSpot | core/src/com/martipops/beatthebird/BetSpot.java:24-29 | a new spot pays on the given value and holds nothing |
| BetSpots.GetWinnings | core/src/com/martipops/beatthebird/BetSpot.java:38-40 | the matching value pays the stake times (value + 1) and any other value pays nothing; non-negative stakes on non-negative values win at least the stake back |
| BetSpots.WinningsOfBackedStake | core/src/com/martipops/beatthebird/BetSpot.java:38-40 | a stake of whole coins of ten wins a non-negative whole number of tens |
| BetLogic.CalculateWinnings | core/src/com/martipops/beatthebird/BetLogic.java:17-23 | the payout is 0 when no spot is on the landed value, and non-negative when stakes and values are |
| BetLogic.OnlyMatchingSpotPays | core/src/com/martipops/beatthebird/BetLogic.java:17-23 | with one spot per value, the payout is exactly the winnings of the spot on the landed value |
| BetLogic.WinningsInTens | core/src/com/martipops/beatthebird/BetLogic.java:17-23 | stakes of whole tens on non-negative values pay a non-negative whole number of tens |
| BetLogic.WinningsAppend | core/src/com/martipops/beatthebird/BetLogic.java:18-20 | the payout of a list is the payout of its first part plus that of the rest, so the order of accumulation does not matter |
| BetLogic.ClearBets | core/src/com/martipops/beatthebird/BetLogic.java:28-31 | every spot keeps its name and value and ends with a zero total and no coins; the list keeps its length and order |
| BetLogic.ClearBetsIdempotent | core/src/com/martipops/beatthebird/BetLogic.java:28-31 | clearing twice is clearing once |
| BetLogic.ZeroStakesWinNothing | core/src/com/martipops/beatthebird/BetLogic.java:17-23 | with every stake at zero, no landed value pays anything |
| BetLogic.NothingWonAfterClear | core/src/com/martipops/beatthebird/BetLogic.java:17-31 | computing winnings after `clearBets` yields 0 for every landed value, so payout must come first |
| Wheels.NewWheel | core/src/com/martipops/beatthebird/WheelActor.java:38-51 | the constructed wheel is idle and at rest, at angle 0, with the slowdown factor 0.99 |
| Wheels.Spin | core/src/com/martipops/beatthebird/WheelActor.java:118-125 | an idle wheel starts spinning at the given speed with the slowdown factor reset to 0.99, at the same angle; a spinning wheel ignores the call |
| Wheels.SpinIgnoredWhileSpinning | core/src/com/martipops/beatthebird/WheelActor.java:118-125 | a second spin before the wheel stops changes nothing |
| Wheels.SpinAtRandom | core/src/com/martipops/beatthebird/WheelActor.java:131-134 | the click-started spin leaves the wheel spinning; a spinning wheel is returned unchanged, and an idle wheel keeps its angle and starts at the drawn speed, from 500 to 1000, with the slowdown factor reset to 0.99 |
| Wheels.Stop | core/src/com/martipops/beatthebird/WheelActor.java:139-143 | the wheel is at rest with zero speed, keeping its angle and slowdown factor |
| Wheels.StopIdempotent | core/src/com/martipops/beatthebird/WheelActor.java:139-143 | stopping a stopped wheel changes nothing |
| Wheels.GetSpot | core/src/com/martipops/beatthebird/WheelActor.java:158-166 | the landed value is always one of 1, 3, 5, 10 and 20, and the out-of-range index can arise only for a negative angle |
| Wheels.GetSpotOfNonNegative | core/src/com/martipops/beatthebird/WheelActor.java:158-166 | for a non-negative angle, the sector index is the integer part of the position and lies between 0 and 12; the numbered value is returned below the yellow threshold and 1 otherwise |
| Wheels.GetSpotValues | core/src/com/martipops/beatthebird/WheelActor.java:158-166 | every non-negative angle lands on one of 1, 3, 5, 10 and 20, without an index fault |
| Wheels.GetSpotAtZero | core/src/com/martipops/beatthebird/WheelActor.java:158-166 | at angle 0 the wheel lands on the first table entry, a 3 |
| Wheels.GetSpotPeriodic | core/src/com/martipops/beatthebird/WheelActor.java:160 | a full extra turn lands on the same value |
| Wheels.EveryValueReachable | core/src/com/martipops/beatthebird/WheelActor.java:158-166 | each of 1, 3, 5, 10 and 20 is landed on by some angle in the first turn |
| Wheels.NegativeAngleFaults | core/src/com/martipops/beatthebird/WheelActor.java:164 | a negative angle can index outside the sector table (angle -100) |
| Wheels.Act | core/src/com/martipops/beatthebird/WheelActor.java:63-80 | an idle wheel is left alone. A spinning wheel turns by speed times delta and its speed is scaled by the slowdown factor, which drops by 0.01 below speed 10. It reports a landing exactly when the new speed is below 0.2; the landing stops the wheel and carries `getSpot` of the final angle |
| Wheels.NewWheelSound | core/src/com/martipops/beatthebird/WheelActor.java:38-51 | the constructed wheel satisfies the wheel invariant: idle with zero speed at a non-negative angle |
| Wheels.SoundnessPreserved | core/src/com/martipops/beatthebird/WheelActor.java:63-143 | spins at non-negative speeds, stops and frames of non-negative length keep the wheel sound; a sound wheel never faults on landing |
| Wheels.FrameKeepsSound | core/src/com/martipops/beatthebird/WheelActor.java:63-80 | a frame of a sound spinning wheel keeps it sound, and its landing never faults |
| Wheels.IdleNeverLands | core/src/com/martipops/beatthebird/WheelActor.java:63-80 | an idle wheel reports no landing over any run of frames |
| Wheels.LandsAtMostOnce | core/src/com/martipops/beatthebird/WheelActor.java:63-80 | a run of frames without a new spin reports at most one landing |
| Wheels.FrameLowersMeasure | core/src/com/martipops/beatthebird/WheelActor.java:67-78 | a frame that leaves the wheel spinning strictly lowers a natural-number bound on the frames still to come |
| Wheels.EventuallyStops | core/src/com/martipops/beatthebird/WheelActor.java:63-80 | a spinning wheel stops after finitely many frames of any fixed length, however fast it started |
| GameMain.FreshSpots | core/src/com/martipops/beatthebird/GameMain.java:115-124 | each spot is empty and carries its own name and value, in order; increasing values give distinct values |
| GameMain.SpotOrderIncreasing | core/src/com/martipops/beatthebird/GameMain.java:130-135 | the spot values along the bet list are non-negative and strictly increasing |
| GameMain.InitialBets | core/src/com/martipops/beatthebird/GameMain.java:114-135 | five empty spots on 1, 3, 5, 10 and 20, in bet-list order, named "One" to "Twenty", no two on the same value |
| GameMain.SpotNamesUnguarded | core/src/com/martipops/beatthebird/GameMain.java:116-124 | none of the spot names is the `"player"` name that `registerBet` refuses as a target |
| GameMain.StartingPlayer | core/src/com/martipops/beatthebird/GameMain.java:37-38 | the player's inventory is named "Player" and holds 100, backed by ten coins of ten |
| GameMain.Create | core/src/com/martipops/beatthebird/GameMain.java:33-45 | after start-up the player holds 100 in ten coins, the five spots are empty, distinct and named "One" to "Twenty", and the wheel is the freshly constructed one: at rest at angle 0 with slowdown factor 0.99 |
| GameMain.CreateSound | core/src/com/martipops/beatthebird/GameMain.java:33-45 | the start-up state satisfies the game invariant |
| GameMain.WheelLanded | core/src/com/martipops/beatthebird/GameMain.java:156-160 | the player is credited the winnings computed from the stakes before they are cleared; the old coins are kept and followed by one ten per whole ten of a non-negative payout, none for a negative one; every spot ends empty with its name and value; the wheel is untouched |
| GameMain.WheelLandedPaysMatchingStake | core/src/com/martipops/beatthebird/GameMain.java:156-160 | with one spot per value, a landing credits exactly the stake on the landed value times (value + 1) |
| GameMain.LandingWithoutStakes | core/src/com/martipops/beatthebird/GameMain.java:156-160 | a landing with nothing staked leaves the game exactly as it was |
| GameMain.WheelLandedKeepsSound | core/src/com/martipops/beatthebird/GameMain.java:156-160 | a landing keeps the game invariant, because winnings are whole tens minted as coins |
| GameMain.BetOnSpot | core/src/com/martipops/beatthebird/GameMain.java:187 | a bet on a spot is `transferCoin` between the player and that spot: the player and the spot take the transfer's results, and `None` comes exactly from a throwing transfer. Only those two change, names and values are kept, and the player's total plus all stakes is conserved |
| GameMain.BetOnSelf | core/src/com/martipops/beatthebird/GameMain.java:187 | a transfer of the player with itself keeps total and coins; it throws exactly for a non-trivial amount on a funded player without coins |
| GameMain.RegisterBet | core/src/com/martipops/beatthebird/GameMain.java:178-189 | answers `false` every time. While the wheel spins, or for an actor that is not an inventory, nothing changes. A target named "player" is refused. Otherwise the player's `transferCoin` with the clicked inventory happens: a spot and the player take the transfer's results, a throwing transfer gives `None`. Only the player and the clicked spot change, names, values and wheel are kept, and the player's total plus all stakes is conserved |
| GameMain.OwnInventoryReachesTransfer | core/src/com/martipops/beatthebird/GameMain.java:184-187 | the name guard never matches the player's own inventory, so a click on it reaches the self-transfer |
| GameMain.OwnInventoryClickChangesNothing | core/src/com/martipops/beatthebird/GameMain.java:178-189 | from a sound state, a bet on the player's own inventory leaves the game unchanged |
| GameMain.RegisterBetKeepsSound | core/src/com/martipops/beatthebird/GameMain.java:178-189 | from a sound state, a bet never throws and keeps the game invariant |
| GameMain.BetMovesStake | core/src/com/martipops/beatthebird/GameMain.java:178-189 | from a sound state, a bet of `n` the player covers moves `10 * n` from the player to the spot; a bet beyond the player's funds moves all of them to the spot and leaves the player empty |
| GameMain.BetThenWithdrawRestores | core/src/com/martipops/beatthebird/GameMain.java:178-189 | from a sound state, betting `n` coins the player can cover on a spot and then withdrawing `n` restores the game exactly |
| GameMain.BackedTransferNeverThrows | core/src/com/martipops/beatthebird/Inventory.java:105-107 | between backed inventories a transfer never meets a funded source without a coin, and both stay backed |
| GameMain.Tick | core/src/com/martipops/beatthebird/WheelActor.java:63-80 | a frame leaves an idle game alone and otherwise advances the wheel; on a landing the player is credited the winnings for the landed value and the stakes are cleared; the result is `None` exactly when the landing faults, and a successful landing is exactly `wheelLanded` applied to the advanced game |
| GameMain.SpinWheel | core/src/com/martipops/beatthebird/WheelActor.java:131-134 | a click on the idle wheel starts it at the drawn speed with factor 0.99 at the same angle; a spinning wheel is left as it was; the player and the spots are untouched |
| GameMain.TickAndSpinKeepSound | core/src/com/martipops/beatthebird/WheelActor.java:63-134 | from a sound state, frames of non-negative length never fault, and frames and spins keep the game invariant |

## Left out

- Rendering, textures, fonts, the stage, screen coordinates and the UI popup are not modelled. This includes `BetLogic.calculateWinnings`'s popup call, `GameUI`, `draw`, `render`, `dispose` and the desktop launcher. They have no effect on the game's numbers.
- Hit-testing is not modelled. This covers `touchHit`, `CircleActor.hit` and `WheelActor.hit`. The actor that was clicked is a parameter of `GameMain.RegisterBet`, and a click on the idle wheel is `GameMain.SpinWheel`.
- The input handlers are not modelled: `touchDown` (amount `button * 2 - 1`) and `scrolled` (amount -1 or 1). They only choose the amount passed to `registerBet`, and that amount is a parameter of the model.
- The debug keys of `keyTyped` are not modelled. Key `c` resets the player with `setTotal(100)`, which `Inventories.SetTotal` models, and then redraws. Key `l` only prints the cursor position.
- Randomness is not modelled. `MathUtils.random(500, 1000)` becomes the parameter `draw`, and the contracts cover every value in the range.
- Coin coordinates are not modelled: `CoinActor.randomizeCoords`. A coin is reduced to its face value, because positions never affect totals or transfers.
- `Inventory.spawnCoin` is not modelled. It adds a coin of 10 without raising `total`, so it would break the backing invariant, but no code calls it.
- Wheels.Act: `float` and `double` arithmetic is replaced by exact reals. The constants 0.99, 0.01, 10 and 0.2 are taken as exact decimals, so rounding effects of IEEE arithmetic are not modelled.
- Inventories.AddTotal: `total` and `amt` are unbounded integers. 32-bit wrap-around of `total += amt`, of `source.total -= coin.value`, of the winnings products in `getWinnings` and of the `amtWon +=` sum in `calculateWinnings` (BetLogic.java:20) is not modelled. Totals in play stay far below `Integer.MAX_VALUE`.
- BetSpots.GetWinnings: the product `total * spotValue` does not wrap at 32 bits, for the same reason.
- libGDX `Group` internals are not modelled, such as the snapshot array and a child's parent link. Children are a sequence. `Group.removeActor` of a coin removes its first occurrence, which for `getCoin(0)` is exactly the child the Java code removes by identity.
- Inventories.Move: `getCoin` returning `null` for a child that is not a coin is not modelled, because the filter in `addActor` admits only coins.
- The rest of the repository is not part of this model: `CircleActor`, `CoinActor` beyond its value, `GameUI`, and the desktop launcher.

=== FILE: bet_logic.dfy ===
/** The ordered list of betting spots: payout for a landed value and the
    reset of every stake afterwards. */
module BetLogic {
  import opened Inventories
  import opened BetSpots

  /** Sum of every spot's winnings for the landed value, accumulated in list
      order. */
  function CalculateWinnings(bets: seq<BetSpot>, spot: int): (w: int)
    ensures (forall i :: 0 <= i < |bets| ==> bets[i].spotValue != spot) ==> w == 0
    ensures (forall i :: 0 <= i < |bets| ==> bets[i].inv.total >= 0 && bets[i].spotValue >= 0) ==> w >= 0
    decreases |bets|
  {
    if |bets| == 0 then 0
    else CalculateWinnings(bets[..|bets| - 1], spot) + GetWinnings(bets[|bets| - 1], spot)
  }

  /** No two spots pay out on the same value. */
  predicate DistinctValues(bets: seq<BetSpot>) {
    forall i, j :: 0 <= i < j < |bets| ==> bets[i].spotValue != bets[j].spotValue
  }

  /** With distinct spot values only the spot matching the landed value
      contributes: the total payout is that spot's winnings. */
  lemma {:induction false} OnlyMatchingSpotPays(bets: seq<BetSpot>, j: int, spot: int)
    requires DistinctValues(bets)
    requires 0 <= j < |bets| && bets[j].spotValue == spot
    ensures CalculateWinnings(bets, spot) == GetWinnings(bets[j], spot)
    decreases |bets|
  {
    var init := bets[..|bets| - 1];
    if j == |bets| - 1 {
      assert forall i :: 0 <= i < |init| ==> init[i].spotValue != spot by {
        forall i | 0 <= i < |init|
          ensures init[i].spotValue != spot
        {
          assert init[i] == bets[i];
        }
      }
    } else {
      assert init[j] == bets[j];
      assert DistinctValues(init) by {
        forall a, b | 0 <= a < b < |init|
          ensures init[a].spotValue != init[b].spotValue
        {
          assert init[a] == bets[a] && init[b] == bets[b];
        }
      }
      OnlyMatchingSpotPays(init, j, spot);
    }
  }

  /** Stakes made of whole coins of ten on spots with non-negative values
      win a non-negative whole number of tens. */
  lemma {:induction false} WinningsInTens(bets: seq<BetSpot>, spot: int)
    requires forall i :: 0 <= i < |bets| ==> Backed(bets[i].inv) && bets[i].spotValue >= 0
    ensures CalculateWinnings(bets, spot) >= 0
    ensures CalculateWinnings(bets, spot) % CoinValue == 0
    decreases |bets|
  {
    if |bets| > 0 {
      var init := bets[..|bets| - 1];
      assert forall i :: 0 <= i < |init| ==> init[i] == bets[i];
      WinningsInTens(init, spot);
      WinningsOfBackedStake(bets[|bets| - 1], spot);
      var a, b := CalculateWinnings(init, spot), GetWinnings(bets[|bets| - 1], spot);
      assert a == CoinValue * (a / CoinValue) && b == CoinValue * (b / CoinValue);
      assert a + b == CoinValue * (a / CoinValue + b / CoinValue);
    }
  }

  /** The payout of a list split in two is the sum of the payouts of the two
      parts, so the accumulation order does not matter. */
  lemma {:induction false} WinningsAppend(a: seq<BetSpot>, b: seq<BetSpot>, spot: int)
    ensures CalculateWinnings(a + b, spot) == CalculateWinnings(a, spot) + CalculateWinnings(b, spot)
    decreases |b|
  {
    if |b| == 0 {
      assert a + b == a;
    } else {
      var ab := a + b;
      assert ab[..|ab| - 1] == a + b[..|b| - 1];
      assert ab[|ab| - 1] == b[|b| - 1];
      WinningsAppend(a, b[..|b| - 1], spot);
    }
  }

  /** Every spot's stake reset to zero with its coins discarded. */
  function ClearBets(bets: seq<BetSpot>): (r: seq<BetSpot>)
    ensures |r| == |bets|
    ensures forall i :: 0 <= i < |r| ==>
      r[i] == BetSpot(Inventory(bets[i].inv.name, 0, []), bets[i].spotValue)
  {
    seq(|bets|, i requires 0 <= i < |bets| => bets[i].(inv := SetTotal(bets[i].inv, 0)))
  }

  /** Clearing twice is clearing once. */
  lemma ClearBetsIdempotent(bets: seq<BetSpot>)
    ensures ClearBets(ClearBets(bets)) == ClearBets(bets)
  {
    var once := ClearBets(bets);
    var twice := ClearBets(once);
    assert forall i :: 0 <= i < |once| ==> twice[i] == once[i];
  }

  /** Once the bets are cleared nothing is won, whatever the landed value:
      payout must be computed before the clear. */
  lemma NothingWonAfterClear(bets: seq<BetSpot>, spot: int)
    ensures CalculateWinnings(ClearBets(bets), spot) == 0
  {
    ZeroStakesWinNothing(ClearBets(bets), spot);
  }

  lemma {:induction false} ZeroStakesWinNothing(bets: seq<BetSpot>, spot: int)
    requires forall i :: 0 <= i < |bets| ==> bets[i].inv.total == 0
    ensures CalculateWinnings(bets, spot) == 0
    decreases |bets|
  {
    if |bets| > 0 {
      var init := bets[..|bets| - 1];
      assert forall i :: 0 <= i < |init| ==> init[i] == bets[i];
      ZeroStakesWinNothing(init, spot);
    }
  }

  /** Sum of the stakes on all spots. */
  function BetsTotal(bets: seq<BetSpot>): int
    decreases |bets|
  {
    if |bets| == 0 then 0 else BetsTotal(bets[..|bets| - 1]) + bets[|bets| - 1].inv.total
  }

  /** Replacing one spot changes the sum of stakes by the change of that
      spot's stake. */
  lemma {:induction false} BetsTotalUpdate(bets: seq<BetSpot>, j: int, s: BetSpot)
    requires 0 <= j < |bets|
    ensures BetsTotal(bets[j := s]) == BetsTotal(bets) - bets[j].inv.total + s.inv.total
    decreases |bets|
  {
    var updated := bets[j := s];
    if j < |bets| - 1 {
      assert updated[..|updated| - 1] == bets[..|bets| - 1][j := s];
      BetsTotalUpdate(bets[..|bets| - 1], j, s);
    } else {
      assert updated[..|updated| - 1] == bets[..|bets| - 1];
    }
  }
}

=== FILE: bet_spot.dfy ===
/** A betting spot: an inventory of staked coins plus the wheel value it
    pays out on. */
module BetSpots {
  import opened Inventories

  /** `spotValue` is fixed when the spot is built; every operation of the
      model only ever replaces `inv`. */
  datatype BetSpot = BetSpot(inv: Inventory, spotValue: int)

  /** A freshly constructed spot: no stake and no coins. */
  function NewBetSpot(name: string, spotValue: int): (s: BetSpot)
    ensures s.spotValue == spotValue
    ensures s.inv.name == name && s.inv.total == 0 && s.inv.coins == []
    ensures Backed(s.inv)
  {
    BetSpot(NewInventory(name), spotValue)
  }

  /** What the spot pays when the wheel lands on `spotLanded`: the stake back
      plus the stake times the spot's value when it is the landed value,
      nothing otherwise. */
  function GetWinnings(spot: BetSpot, spotLanded: int): (w: int)
    ensures spotLanded == spot.spotValue ==> w == spot.inv.total * (spot.spotValue + 1)
    ensures spotLanded != spot.spotValue ==> w == 0
    ensures spot.inv.total >= 0 && spot.spotValue >= 0 ==> w >= 0
    ensures spotLanded == spot.spotValue && spot.inv.total >= 0 && spot.spotValue >= 0 ==> w >= spot.inv.total
  {
    if spotLanded == spot.spotValue then (spot.inv.total * spot.spotValue) + spot.inv.total else 0
  }

  /** A stake made of whole coins of ten wins a whole number of tens. */
  lemma WinningsOfBackedStake(spot: BetSpot, spotLanded: int)
    requires Backed(spot.inv) && spot.spotValue >= 0
    ensures GetWinnings(spot, spotLanded) >= 0
    ensures GetWinnings(spot, spotLanded) % CoinValue == 0
  {
    ValueOfTens(spot.inv.coins);
    var c := |spot.inv.coins|;
    assert spot.inv.total == CoinValue * c;
    if spotLanded == spot.spotValue {
      assert GetWinnings(spot, spotLanded) == CoinValue * (c * (spot.spotValue + 1));
    }
  }
}

=== FILE: game_interface.dfy ===
/** The wheel geometry constants of the game, as exact rationals. */
module GameInterface {

  /** The numbered sectors of the wheel in clockwise order; the yellow "1"
      parts between them are not listed. */
  const WheelSpots: seq<int> := [3, 10, 3, 5, 3, 20, 3, 5, 3, 10, 3, 5, 5]

  /** Number of yellow "1" parts on the wheel. */
  const YellowSpots: real := 12.0

  /** Number of numbered parts on the wheel. */
  const OtherNumberedSpots: real := 13.0

  /** Fraction of a sector, measured from its start, below which the
      numbered part is hit. */
  const YellowSpotThreshold: real := YellowSpots / (YellowSpots + OtherNumberedSpots)

  /** How many sectors fit into one full turn: a little over twelve. */
  const TotalSectors: real := YellowSpots + (1.0 - YellowSpotThreshold)

  /** Width of one sector in degrees. */
  const SectorAngle: real := 360.0 / TotalSectors

  /** The values a landing can report: the yellow "1" plus every numbered
      sector value. */
  const SpotValues: set<int> := {1, 3, 5, 10, 20}

  lemma WheelSpotsShape()
    ensures |WheelSpots| == 13
    ensures forall i :: 0 <= i < |WheelSpots| ==> WheelSpots[i] in {3, 5, 10, 20}
  {
  }

  lemma SectorGeometry()
    ensures YellowSpotThreshold == 12.0 / 25.0
    ensures 0.0 < YellowSpotThreshold < 1.0
    ensures TotalSectors == 12.0 + 13.0 / 25.0
    ensures TotalSectors < |WheelSpots| as real
    ensures SectorAngle == 9000.0 / 313.0
    ensures SectorAngle * TotalSectors == 360.0
  {
  }
}

=== FILE: game_main.dfy ===
/** The game as a whole: the player's inventory, the five betting spots and
    the wheel, with the steps that tie them together. A step that would let
    a Java exception escape yields `None`. */
module GameMain {
  import opened Wrappers
  import opened JavaArith
  import opened Inventories
  import opened BetSpots
  import opened BetLogic
  import opened Wheels

  /** The name the player's inventory is given at start-up. */
  const PlayerName: string := "Player"
  /** The name `registerBet` refuses to bet on. */
  const GuardedName: string := "player"
  /** The player's funds at start-up. */
  const StartingFunds: int := 100

  datatype GameState = GameState(player: Inventory, bets: seq<BetSpot>, wheel: Wheel)

  /** The names and values of the spots, in the order they are added to the
      bet list. */
  const SpotNames: seq<string> := ["One", "Three", "Five", "Ten", "Twenty"]
  const SpotOrder: seq<int> := [1, 3, 5, 10, 20]

  /** Fresh spots with the given names and values, in order. */
  function FreshSpots(names: seq<string>, values: seq<int>): (r: seq<BetSpot>)
    requires |names| == |values|
    ensures |r| == |values|
    ensures forall i :: 0 <= i < |r| ==> r[i].spotValue == values[i] && r[i].inv.name == names[i]
    ensures forall i :: 0 <= i < |r| ==> r[i].inv.total == 0 && r[i].inv.coins == [] && Backed(r[i].inv)
    ensures (forall a, b :: 0 <= a < b < |values| ==> values[a] < values[b]) ==> DistinctValues(r)
  {
    seq(|values|, i requires 0 <= i < |values| => NewBetSpot(names[i], values[i]))
  }

  /** The values strictly increase along the bet list. */
  lemma SpotOrderIncreasing()
    ensures forall a, b :: 0 <= a < b < |SpotOrder| ==> 0 <= SpotOrder[a] < SpotOrder[b]
  {
    assert SpotOrder[0] == 1 && SpotOrder[1] == 3 && SpotOrder[2] == 5;
    assert SpotOrder[3] == 10 && SpotOrder[4] == 20;
  }

  /** The five spots in the order they are added to the bet list, each
      empty and paying on its own value, no two on the same value. */
  function InitialBets(): (r: seq<BetSpot>)
    ensures |r| == |SpotOrder|
    ensures forall i :: 0 <= i < |r| ==> r[i].spotValue == SpotOrder[i] && r[i].spotValue >= 0
    ensures forall i :: 0 <= i < |r| ==> r[i].inv.name == SpotNames[i]
    ensures forall i :: 0 <= i < |r| ==> r[i].inv.total == 0 && r[i].inv.coins == [] && Backed(r[i].inv)
    ensures DistinctValues(r)
  {
    SpotOrderIncreasing();
    FreshSpots(SpotNames, SpotOrder)
  }

  /** No spot is named like the guarded target, so the fresh game accepts
      bets on every spot. */
  lemma SpotNamesUnguarded()
    ensures forall i :: 0 <= i < |SpotNames| ==> SpotNames[i] != GuardedName
  {
  }

  /** The player's inventory at start-up: 100, backed by ten coins of ten. */
  function StartingPlayer(): (p: Inventory)
    ensures p.name == PlayerName && p.total == StartingFunds
    ensures |p.coins| == StartingFunds / CoinValue && Backed(p)
  {
    SetTotalBacked(NewInventory(PlayerName), StartingFunds);
    SetTotal(NewInventory(PlayerName), StartingFunds)
  }

  /** The state after start-up: the player holds 100 in ten coins, the five
      spots are empty and the wheel is at rest at angle 0. */
  function Create(): (g: GameState)
    ensures g.player.name == PlayerName && g.player.total == 100
    ensures |g.player.coins| == 10 && Backed(g.player)
    ensures |g.bets| == |SpotOrder|
    ensures forall i :: 0 <= i < |g.bets| ==> g.bets[i].spotValue == SpotOrder[i]
    ensures forall i :: 0 <= i < |g.bets| ==> g.bets[i].inv.name == SpotNames[i]
    ensures forall i :: 0 <= i < |g.bets| ==> g.bets[i].inv.total == 0 && g.bets[i].inv.coins == []
    ensures DistinctValues(g.bets)
    ensures g.wheel == NewWheel()
  {
    GameState(StartingPlayer(), InitialBets(), NewWheel())
  }

  /** Sum of everything staked or held: the player's total plus every
      spot's stake. */
  function Holdings(g: GameState): int {
    g.player.total + BetsTotal(g.bets)
  }

  /** The landing of the wheel on `spot`: the winnings are computed from the
      current stakes, credited to the player, and only then are the stakes
      cleared. */
  function WheelLanded(g: GameState, spot: int): (r: GameState)
    ensures r.player.name == g.player.name
    ensures r.player.total == g.player.total + CalculateWinnings(g.bets, spot)
    ensures |r.player.coins| >= |g.player.coins| && r.player.coins[..|g.player.coins|] == g.player.coins
    ensures forall i :: |g.player.coins| <= i < |r.player.coins| ==> r.player.coins[i] == Coin(CoinValue)
    ensures CalculateWinnings(g.bets, spot) < 0 ==> r.player.coins == g.player.coins
    ensures var w, d := CalculateWinnings(g.bets, spot), |r.player.coins| - |g.player.coins|;
      w >= 0 ==> CoinValue * d <= w < CoinValue * d + CoinValue
    ensures |r.bets| == |g.bets|
    ensures forall i :: 0 <= i < |r.bets| ==>
      r.bets[i] == BetSpot(Inventory(g.bets[i].inv.name, 0, []), g.bets[i].spotValue)
    ensures r.wheel == g.wheel
  {
    var winamt := CalculateWinnings(g.bets, spot);
    GameState(AddTotal(g.player, winamt), ClearBets(g.bets), g.wheel)
  }

  /** With one spot per value, a landing credits the player exactly the
      stake on the landed value times that value plus one. */
  lemma WheelLandedPaysMatchingStake(g: GameState, j: int)
    requires DistinctValues(g.bets) && 0 <= j < |g.bets|
    ensures var spot := g.bets[j].spotValue;
      WheelLanded(g, spot).player.total == g.player.total + g.bets[j].inv.total * (spot + 1)
  {
    OnlyMatchingSpotPays(g.bets, j, g.bets[j].spotValue);
  }

  /** What the click landed on: the player's inventory, one of the spots (by
      position in the bet list), or any actor that is not an inventory. */
  datatype Hit = HitPlayer | HitSpot(index: int) | HitOther

  /** The transfer between the player and the spot at `i`, with the spot's
      new inventory put back in its place in the bet list. `None` when the
      transfer throws. */
  function BetOnSpot(g: GameState, i: int, amount: int): (r: Option<GameState>)
    requires IsInt32(amount) && 0 <= i < |g.bets|
    ensures r.Some? ==> r.value.wheel == g.wheel && r.value.player.name == g.player.name
    ensures r.Some? ==> |r.value.bets| == |g.bets|
    ensures r.Some? ==> forall k :: 0 <= k < |g.bets| ==>
      && r.value.bets[k].spotValue == g.bets[k].spotValue
      && r.value.bets[k].inv.name == g.bets[k].inv.name
      && (k != i ==> r.value.bets[k] == g.bets[k])
    ensures r.Some? ==> Holdings(r.value) == Holdings(g)
    ensures var t := TransferCoin(g.player, g.bets[i].inv, amount);
      && (r.None? <==> t.outcome == Thrown)
      && (r.Some? ==> r.value.player == t.inv && r.value.bets[i].inv == t.dest)
  {
    var t := TransferCoin(g.player, g.bets[i].inv, amount);
    if t.outcome == Thrown then None
    else
      var spot := g.bets[i].(inv := t.dest);
      BetsTotalUpdate(g.bets, i, spot);
      Some(GameState(t.inv, g.bets[i := spot], g.wheel))
  }

  /** The transfer of the player's inventory with itself. `None` when the
      transfer throws. */
  function BetOnSelf(g: GameState, amount: int): (r: Option<GameState>)
    requires IsInt32(amount)
    ensures r.Some? ==> r.value.bets == g.bets && r.value.wheel == g.wheel
    ensures r.Some? ==> r.value.player.name == g.player.name && r.value.player.total == g.player.total
    ensures r.Some? ==> multiset(r.value.player.coins) == multiset(g.player.coins)
    ensures r.None? <==> amount != 0 && amount != MinInt32 && g.player.total >= CoinValue && g.player.coins == []
  {
    var t := TransferCoinToSelf(g.player, amount);
    if t.outcome == Thrown then None
    else Some(g.(player := t.inv))
  }

  /** Registers a bet of `amount` coins on the clicked actor. Refused while
      the wheel spins or when the actor is not an inventory; otherwise, unless
      the actor is named "player", coins move between the player and the
      actor. The answer is always `false`. */
  function RegisterBet(g: GameState, hit: Hit, amount: int): (r: Option<(GameState, bool)>)
    requires IsInt32(amount)
    requires hit.HitSpot? ==> 0 <= hit.index < |g.bets|
    ensures r.Some? ==> !r.value.1
    ensures g.wheel.spinning || hit.HitOther? ==> r == Some((g, false))
    ensures r.Some? ==> r.value.0.wheel == g.wheel && r.value.0.player.name == g.player.name
    ensures r.Some? ==> |r.value.0.bets| == |g.bets|
    ensures r.Some? ==> forall i :: 0 <= i < |g.bets| ==>
      && r.value.0.bets[i].spotValue == g.bets[i].spotValue
      && r.value.0.bets[i].inv.name == g.bets[i].inv.name
      && (hit != HitSpot(i) ==> r.value.0.bets[i] == g.bets[i])
    ensures r.Some? ==> Holdings(r.value.0) == Holdings(g)
    ensures hit.HitPlayer? && g.player.name == GuardedName ==> r == Some((g, false))
    ensures hit.HitSpot? && g.bets[hit.index].inv.name == GuardedName ==> r == Some((g, false))
    ensures !g.wheel.spinning && hit.HitSpot? && g.bets[hit.index].inv.name != GuardedName ==>
      var t := TransferCoin(g.player, g.bets[hit.index].inv, amount);
      && (r.None? <==> t.outcome == Thrown)
      && (r.Some? ==> r.value.0.player == t.inv && r.value.0.bets[hit.index].inv == t.dest)
    ensures !g.wheel.spinning && hit.HitPlayer? && g.player.name != GuardedName ==>
      var t := TransferCoinToSelf(g.player, amount);
      && (r.None? <==> t.outcome == Thrown)
      && (r.Some? ==> r.value.0.player == t.inv)
  {
    if g.wheel.spinning then Some((g, false))
    else match hit
      case HitOther => Some((g, false))
      case HitPlayer =>
        if g.player.name == GuardedName then Some((g, false))
        else (match BetOnSelf(g, amount)
          case None => None
          case Some(after) => Some((after, false)))
      case HitSpot(i) =>
        if g.bets[i].inv.name == GuardedName then Some((g, false))
        else (match BetOnSpot(g, i, amount)
          case None => None
          case Some(after) => Some((after, false)))
  }

  /** The guard compares against "player" but the player's inventory is
      named "Player", so a click on the player's own inventory is not refused
      by the guard and reaches the transfer of the inventory with itself. */
  lemma OwnInventoryReachesTransfer(g: GameState, amount: int)
    requires IsInt32(amount)
    requires g.player.name == PlayerName && !g.wheel.spinning
    ensures PlayerName != GuardedName
    ensures var t := TransferCoinToSelf(g.player, amount);
      RegisterBet(g, HitPlayer, amount) == (if t.outcome == Thrown then None else Some((g.(player := t.inv), false)))
  {
    assert PlayerName[0] != GuardedName[0];
  }

  /** Every inventory holds only tens and exactly its total, every spot value
      is non-negative, and the wheel is sound. */
  predicate Sound(g: GameState) {
    && Backed(g.player)
    && (forall i :: 0 <= i < |g.bets| ==> Backed(g.bets[i].inv) && g.bets[i].spotValue >= 0)
    && WheelSound(g.wheel)
  }

  lemma CreateSound()
    ensures Sound(Create())
  {
    NewWheelSound();
  }

  /** In a sound state the misdirected click on the player's own inventory
      is harmless: the self-transfer of coins that are all tens leaves the
      state exactly as it was. */
  lemma OwnInventoryClickChangesNothing(g: GameState, amount: int)
    requires IsInt32(amount) && Sound(g)
    ensures RegisterBet(g, HitPlayer, amount) == Some((g, false))
  {
    var t := TransferCoinToSelf(g.player, amount);
    if !g.wheel.spinning && g.player.name != GuardedName {
      ValueOfTens(g.player.coins);
      assert t.outcome != Thrown;
      assert g.(player := t.inv) == g;
    }
  }

  /** In a sound state a bet never throws and leaves the state sound. */
  lemma RegisterBetKeepsSound(g: GameState, hit: Hit, amount: int)
    requires IsInt32(amount) && Sound(g)
    requires hit.HitSpot? ==> 0 <= hit.index < |g.bets|
    ensures RegisterBet(g, hit, amount).Some?
    ensures Sound(RegisterBet(g, hit, amount).value.0)
  {
    if hit.HitPlayer? {
      OwnInventoryClickChangesNothing(g, amount);
    } else if hit.HitSpot? && !g.wheel.spinning && g.bets[hit.index].inv.name != GuardedName {
      var i := hit.index;
      var spot := g.bets[i].inv;
      BackedTransferNeverThrows(g.player, spot, amount);
      var t := TransferCoin(g.player, spot, amount);
      var r := RegisterBet(g, hit, amount).value.0;
      assert r.player == t.inv && r.bets[i].inv == t.dest;
      assert forall k :: 0 <= k < |r.bets| && k != i ==> r.bets[k] == g.bets[k];
    }
  }

  /** A left click on a spot (a bet of `-n`, coins from the player to the
      spot) followed by a right click (a bet of `n`, coins back) leaves the
      game as it was, as long as the player can cover the first bet. */
  lemma BetThenWithdrawRestores(g: GameState, i: int, n: int)
    requires Sound(g) && 0 <= i < |g.bets| && !g.wheel.spinning
    requires g.bets[i].inv.name != GuardedName
    requires 0 < n <= MaxInt32 && CoinValue * n <= g.player.total
    ensures RegisterBet(g, HitSpot(i), -n).Some?
    ensures RegisterBet(RegisterBet(g, HitSpot(i), -n).value.0, HitSpot(i), n) == Some((g, false))
  {
    var spot := g.bets[i].inv;
    ValueOfTens(g.player.coins);
    TransferThenReturn(g.player, spot, n);
    var t := TransferCoin(g.player, spot, -n);
    var g1 := RegisterBet(g, HitSpot(i), -n).value.0;
    assert g1 == GameState(t.inv, g.bets[i := g.bets[i].(inv := t.dest)], g.wheel);
    assert g1.bets[i := g1.bets[i].(inv := spot)] == g.bets;
  }

  /** A left click on a spot really moves the stake: from a sound state, a
      bet of `n` coins the player can cover takes `10 * n` from the player
      and puts it on the spot; a bet beyond the player's funds moves every
      coin the player has before it is refused. */
  lemma BetMovesStake(g: GameState, i: int, n: int)
    requires Sound(g) && 0 <= i < |g.bets| && !g.wheel.spinning
    requires g.bets[i].inv.name != GuardedName
    requires 0 < n <= MaxInt32
    ensures RegisterBet(g, HitSpot(i), -n).Some?
    ensures var r := RegisterBet(g, HitSpot(i), -n).value.0;
      if CoinValue * n <= g.player.total then
        && r.player.total == g.player.total - CoinValue * n
        && r.bets[i].inv.total == g.bets[i].inv.total + CoinValue * n
      else
        && r.player.total == 0 && r.player.coins == []
        && r.bets[i].inv.total == g.bets[i].inv.total + g.player.total
  {
    var spot := g.bets[i].inv;
    MoveFunds(g.player, spot, n);
    var m := Move(g.player, spot, n);
    var t := TransferCoin(g.player, spot, -n);
    assert t == Transfer(m.source, m.target, m.outcome);
    ValueOfTens(g.player.coins);
  }

  /** A landing while nothing is staked changes nothing: nothing is won and
      the cleared spots were already empty. */
  lemma LandingWithoutStakes(g: GameState, spot: int)
    requires forall i :: 0 <= i < |g.bets| ==> g.bets[i].inv.total == 0 && g.bets[i].inv.coins == []
    ensures WheelLanded(g, spot) == g
  {
    ZeroStakesWinNothing(g.bets, spot);
    assert ClearBets(g.bets) == g.bets;
  }

  /** Between two fully backed inventories the transfer loop never finds a
      funded source without a coin. */
  lemma BackedTransferNeverThrows(inv: Inventory, dest: Inventory, amount: int)
    requires IsInt32(amount) && Backed(inv) && Backed(dest)
    ensures TransferCoin(inv, dest, amount).outcome != Thrown
    ensures Backed(TransferCoin(inv, dest, amount).inv) && Backed(TransferCoin(inv, dest, amount).dest)
  {
    var n := JavaAbs(amount);
    if n > 0 {
      if amount < 0 {
        MoveFundsOutcome(inv, dest, n);
      } else {
        MoveFundsOutcome(dest, inv, n);
      }
    }
  }

  /** A landing from a sound state keeps it sound: the winnings are whole
      tens, so the player's new coins back them exactly, and cleared spots
      hold nothing. */
  lemma WheelLandedKeepsSound(g: GameState, spot: int)
    requires Sound(g)
    ensures Sound(WheelLanded(g, spot))
  {
    var r := WheelLanded(g, spot);
    var w := CalculateWinnings(g.bets, spot);
    WinningsInTens(g.bets, spot);
    AddTotalSlack(g.player, w);
    assert forall i :: 0 <= i < |r.bets| ==> Backed(r.bets[i].inv) && r.bets[i].spotValue >= 0;
  }

  /** The per-frame step of the game: the wheel acts, and if it stopped, the
      landing is paid out. */
  function Tick(g: GameState, delta: real): (r: Option<GameState>)
    ensures !g.wheel.spinning ==> r == Some(g)
    ensures Act(g.wheel, delta).report == NoLanding ==> r == Some(g.(wheel := Act(g.wheel, delta).wheel))
    ensures r.Some? ==> r.value.wheel == Act(g.wheel, delta).wheel
    ensures r.Some? && Act(g.wheel, delta).report.Landed? ==>
      r.value.player.total == g.player.total + CalculateWinnings(g.bets, Act(g.wheel, delta).report.value)
    ensures r.Some? && Act(g.wheel, delta).report.Landed? ==> r.value.bets == ClearBets(g.bets)
    ensures r.None? <==> Act(g.wheel, delta).report == SpotFault
    ensures r.Some? && Act(g.wheel, delta).report.Landed? ==>
      r.value == WheelLanded(g.(wheel := Act(g.wheel, delta).wheel), Act(g.wheel, delta).report.value)
  {
    var t := Act(g.wheel, delta);
    var moved := g.(wheel := t.wheel);
    match t.report
    case NoLanding => Some(moved)
    case Landed(v) => Some(WheelLanded(moved, v))
    case SpotFault => None
  }

  /** A click on the idle wheel starts a spin at a random speed `draw`. */
  function SpinWheel(g: GameState, draw: int): (r: GameState)
    requires MinRandomSpeed <= draw <= MaxRandomSpeed
    ensures r.wheel.spinning
    ensures r.player == g.player && r.bets == g.bets
    ensures g.wheel.spinning ==> r == g
    ensures !g.wheel.spinning ==> r.wheel == Wheel(g.wheel.rotation, draw as real, InitialSlowdown, true)
  {
    g.(wheel := SpinAtRandom(g.wheel, draw))
  }

  /** Frames of non-negative length and spins keep a sound state sound, and
      a sound state never faults on a frame. */
  lemma TickAndSpinKeepSound(g: GameState, delta: real, draw: int)
    requires Sound(g) && delta >= 0.0
    requires MinRandomSpeed <= draw <= MaxRandomSpeed
    ensures Tick(g, delta).Some? && Sound(Tick(g, delta).value)
    ensures Sound(SpinWheel(g, draw))
  {
    SoundnessPreserved(g.wheel, draw, delta);
    var t := Act(g.wheel, delta);
    if t.report.Landed? {
      WheelLandedKeepsSound(g.(wheel := t.wheel), t.report.value);
    }
  }
}

=== FILE: inventory.dfy ===
/** The coin ledger. An inventory has a name, an integer total and an ordered
    collection of coin units; the total is what the game shows and pays out,
    the coins are what moves between inventories one at a time. */
module Inventories {
  import opened Wrappers
  import opened JavaArith

  /** Face value of every coin the game mints. */
  const CoinValue: int := 10

  /** A coin unit keeps only its immutable face value. */
  datatype Coin = Coin(value: int)

  /** What may be offered to an inventory as a child actor. */
  datatype Actor = CoinActor(coin: Coin) | OtherActor

  datatype Inventory = Inventory(name: string, total: int, coins: seq<Coin>)

  /** A freshly constructed inventory: nothing held. */
  function NewInventory(name: string): (r: Inventory)
    ensures r.name == name && r.total == 0 && r.coins == []
    ensures Backed(r)
  {
    Inventory(name, 0, [])
  }

  /** Sum of the face values of a coin sequence. */
  function Value(coins: seq<Coin>): int {
    if |coins| == 0 then 0 else coins[0].value + Value(coins[1..])
  }

  lemma {:induction false} ValueAppend(a: seq<Coin>, b: seq<Coin>)
    ensures Value(a + b) == Value(a) + Value(b)
  {
    if |a| == 0 {
      assert a + b == b;
    } else {
      assert (a + b)[1..] == a[1..] + b;
      ValueAppend(a[1..], b);
    }
  }

  predicate AllTens(coins: seq<Coin>) {
    forall i :: 0 <= i < |coins| ==> coins[i] == Coin(CoinValue)
  }

  lemma {:induction false} ValueOfTens(coins: seq<Coin>)
    requires AllTens(coins)
    ensures Value(coins) == CoinValue * |coins|
  {
    if |coins| > 0 {
      ValueOfTens(coins[1..]);
    }
  }

  /** Two coin sequences of tens are equal as soon as their lengths are. */
  lemma TensAreInterchangeable(a: seq<Coin>, b: seq<Coin>)
    requires AllTens(a) && AllTens(b) && |a| == |b|
    ensures a == b
  {
    assert forall i :: 0 <= i < |a| ==> a[i] == b[i];
  }

  /** The part of the total that no coin represents. */
  function Slack(inv: Inventory): int {
    inv.total - Value(inv.coins)
  }

  /** Every coin is a ten and the total is exactly the value of the coins. */
  predicate Backed(inv: Inventory) {
    AllTens(inv.coins) && Slack(inv) == 0
  }

  // ---------------------------------------------------------------------
  // The coin-only child filter

  /** Only coins become children; any other actor is ignored. */
  function AddActor(inv: Inventory, a: Actor): (r: Inventory)
    ensures r.name == inv.name && r.total == inv.total
    ensures a.OtherActor? ==> r == inv
    ensures a.CoinActor? ==> |r.coins| == |inv.coins| + 1 && r.coins[|inv.coins|] == a.coin
    ensures a.CoinActor? ==> r.coins[..|inv.coins|] == inv.coins
  {
    match a
    case CoinActor(c) => inv.(coins := inv.coins + [c])
    case OtherActor => inv
  }

  /** Removes the first occurrence of `c`, keeping the order of the rest. */
  function RemoveFirst(coins: seq<Coin>, c: Coin): (r: seq<Coin>)
    ensures c !in coins ==> r == coins
    ensures |coins| > 0 && coins[0] == c ==> r == coins[1..]
  {
    if |coins| == 0 then []
    else if coins[0] == c then coins[1..]
    else [coins[0]] + RemoveFirst(coins[1..], c)
  }

  /** Exactly one copy of `c` is removed when there is one. */
  lemma {:induction false} RemoveFirstMultiset(coins: seq<Coin>, c: Coin)
    ensures multiset(RemoveFirst(coins, c)) == multiset(coins) - multiset{c}
  {
    if |coins| > 0 {
      assert coins == [coins[0]] + coins[1..];
      assert multiset(coins) == multiset{coins[0]} + multiset(coins[1..]);
      if coins[0] != c {
        RemoveFirstMultiset(coins[1..], c);
        var rest := RemoveFirst(coins[1..], c);
        assert multiset([coins[0]] + rest) == multiset{coins[0]} + multiset(rest);
      }
    }
  }

  /** Only coins are removed, and the answer says whether the actor was a
      coin (not whether it was present). */
  function RemoveActor(inv: Inventory, a: Actor): (r: (Inventory, bool))
    ensures r.1 <==> a.CoinActor?
    ensures r.0.name == inv.name && r.0.total == inv.total
    ensures a.OtherActor? ==> r.0 == inv
    ensures a.CoinActor? ==> multiset(r.0.coins) == multiset(inv.coins) - multiset{a.coin}
  {
    match a
    case CoinActor(c) =>
      RemoveFirstMultiset(inv.coins, c);
      (inv.(coins := RemoveFirst(inv.coins, c)), true)
    case OtherActor => (inv, false)
  }

  /** Removing a coin just added gives back the same collection of coins, and
      exactly the same inventory when no equal coin was held before. */
  lemma RemoveUndoesAdd(inv: Inventory, c: Coin)
    ensures multiset(RemoveActor(AddActor(inv, CoinActor(c)), CoinActor(c)).0.coins) == multiset(inv.coins)
    ensures c !in inv.coins ==> RemoveActor(AddActor(inv, CoinActor(c)), CoinActor(c)) == (inv, true)
  {
    assert multiset(inv.coins + [c]) == multiset(inv.coins) + multiset{c};
    if c !in inv.coins {
      RemoveFirstOfAppended(inv.coins, c);
    }
  }

  lemma {:induction false} RemoveFirstOfAppended(coins: seq<Coin>, c: Coin)
    requires c !in coins
    ensures RemoveFirst(coins + [c], c) == coins
  {
    if |coins| > 0 {
      assert (coins + [c])[1..] == coins[1..] + [c];
      assert (coins + [c])[0] == coins[0];
      RemoveFirstOfAppended(coins[1..], c);
    }
  }

  /** The coin at child index `i`; `None` where the child list would throw. */
  function GetCoin(inv: Inventory, i: int): (r: Option<Coin>)
    ensures r.Some? <==> 0 <= i < |inv.coins|
    ensures r.Some? ==> r.value == inv.coins[i]
  {
    if 0 <= i < |inv.coins| then Some(inv.coins[i]) else None
  }

  // ---------------------------------------------------------------------
  // Minting coins

  /** Adds `numCoins` new tens behind the existing coins; nothing when it is
      not positive. */
  function AddCoins(inv: Inventory, numCoins: int): (r: Inventory)
    ensures r.name == inv.name && r.total == inv.total
    ensures |r.coins| == |inv.coins| + (if numCoins > 0 then numCoins else 0)
    ensures r.coins[..|inv.coins|] == inv.coins
    ensures forall i :: |inv.coins| <= i < |r.coins| ==> r.coins[i] == Coin(CoinValue)
  {
    inv.(coins := inv.coins + seq(if numCoins > 0 then numCoins else 0, _ => Coin(CoinValue)))
  }

  /** The loop of `addCoins` as written: one `addActor` of a new ten per
      iteration. */
  function AddCoinsLoop(inv: Inventory, numCoins: int): (r: Inventory)
    ensures r.name == inv.name && r.total == inv.total
    ensures |r.coins| == |inv.coins| + (if numCoins > 0 then numCoins else 0)
    ensures r.coins[..|inv.coins|] == inv.coins
    decreases numCoins
  {
    if numCoins <= 0 then inv
    else AddCoinsLoop(AddActor(inv, CoinActor(Coin(CoinValue))), numCoins - 1)
  }

  /** Adding the tens all at once is the same as adding them one at a time. */
  lemma {:induction false} AddCoinsIsLoop(inv: Inventory, numCoins: int)
    ensures AddCoins(inv, numCoins) == AddCoinsLoop(inv, numCoins)
    decreases numCoins
  {
    if numCoins > 0 {
      var next := AddActor(inv, CoinActor(Coin(CoinValue)));
      AddCoinsIsLoop(next, numCoins - 1);
      var a := AddCoins(inv, numCoins);
      var b := AddCoins(next, numCoins - 1);
      assert |a.coins| == |b.coins|;
      assert forall i :: 0 <= i < |a.coins| ==> a.coins[i] == b.coins[i];
    }
  }

  /** Raises the total by `amt` and mints one ten for every whole ten in
      `amt`; a negative amount mints nothing. */
  function AddTotal(inv: Inventory, amt: int): (r: Inventory)
    ensures r.name == inv.name
    ensures r.total == inv.total + amt
    ensures |r.coins| >= |inv.coins| && r.coins[..|inv.coins|] == inv.coins
    ensures forall i :: |inv.coins| <= i < |r.coins| ==> r.coins[i] == Coin(CoinValue)
    ensures amt < 0 ==> r.coins == inv.coins
    ensures amt >= 0 ==> CoinValue * (|r.coins| - |inv.coins|) <= amt < CoinValue * (|r.coins| - |inv.coins|) + CoinValue
  {
    AddCoins(inv.(total := inv.total + amt), JavaDiv(amt, CoinValue))
  }

  /** What `AddTotal` does to the unbacked part of the total: a positive
      amount adds its last decimal digit, a negative one all of itself. */
  lemma AddTotalSlack(inv: Inventory, amt: int)
    ensures amt >= 0 ==> Slack(AddTotal(inv, amt)) == Slack(inv) + amt % CoinValue
    ensures amt < 0 ==> Slack(AddTotal(inv, amt)) == Slack(inv) + amt
    ensures AllTens(inv.coins) ==> AllTens(AddTotal(inv, amt).coins)
  {
    var r := AddTotal(inv, amt);
    var minted := r.coins[|inv.coins|..];
    assert r.coins == inv.coins + minted;
    assert AllTens(minted) by {
      assert forall i :: 0 <= i < |minted| ==> minted[i] == r.coins[|inv.coins| + i];
    }
    ValueAppend(inv.coins, minted);
    ValueOfTens(minted);
  }

  /** Discards every coin and sets the total to `value`, backed by one ten
      for every whole ten in it. */
  function SetTotal(inv: Inventory, value: int): (r: Inventory)
    ensures r.name == inv.name
    ensures r.total == value
    ensures AllTens(r.coins)
    ensures value < 0 ==> r.coins == []
    ensures value >= 0 ==> CoinValue * |r.coins| <= value < CoinValue * |r.coins| + CoinValue
  {
    AddTotal(inv.(total := 0, coins := []), value)
  }

  /** Only the last `SetTotal` matters. */
  lemma SetTotalOverrides(inv: Inventory, a: int, b: int)
    ensures SetTotal(SetTotal(inv, a), b) == SetTotal(inv, b)
  {
    var x := SetTotal(SetTotal(inv, a), b);
    var y := SetTotal(inv, b);
    assert |x.coins| == |y.coins|;
    TensAreInterchangeable(x.coins, y.coins);
  }

  /** Setting a total that is a whole number of tens leaves it fully backed. */
  lemma SetTotalBacked(inv: Inventory, value: int)
    requires value >= 0 && value % CoinValue == 0
    ensures Backed(SetTotal(inv, value))
    ensures |SetTotal(inv, value).coins| == value / CoinValue
  {
    ValueOfTens(SetTotal(inv, value).coins);
  }

  // ---------------------------------------------------------------------
  // Transferring coins

  /** How a transfer ended: every iteration done (`true`), an iteration found
      the source short (`false`), or the source had no child to take (the
      child lookup throws). */
  datatype Outcome = Completed | Refused | Thrown

  /** Source and target after some iterations of the transfer loop. */
  datatype Moves = Moves(source: Inventory, target: Inventory, outcome: Outcome)

  /** One iteration's effect: the first coin leaves the source for the back
      of the target, and its value moves from one total to the other. */
  function ShiftCoin(source: Inventory, target: Inventory, coin: Coin): (r: (Inventory, Inventory))
    requires |source.coins| > 0 && coin == source.coins[0]
    ensures r.0.name == source.name && r.1.name == target.name
    ensures r.0.total + r.1.total == source.total + target.total
  {
    (Inventory(source.name, source.total - coin.value, source.coins[1..]),
     Inventory(target.name, target.total + coin.value, target.coins + [coin]))
  }

  /** `ShiftCoin` is exactly the loop body's four statements: debit the
      source, credit the target, `removeActor` from the source and
      `addActor` to the target. */
  lemma ShiftCoinIsRemoveThenAdd(source: Inventory, target: Inventory, coin: Coin)
    requires |source.coins| > 0 && coin == source.coins[0]
    ensures ShiftCoin(source, target, coin)
      == (RemoveActor(source.(total := source.total - coin.value), CoinActor(coin)).0,
          AddActor(target.(total := target.total + coin.value), CoinActor(coin)))
  {
  }

  /** The transfer loop between two distinct inventories: up to `n`
      iterations, each checking the source's funds before taking its first
      coin. */
  function Move(source: Inventory, target: Inventory, n: int): (r: Moves)
    ensures r.source.name == source.name && r.target.name == target.name
    ensures n <= 0 ==> r == Moves(source, target, Completed)
    decreases n
  {
    if n <= 0 then Moves(source, target, Completed)
    else if source.total < CoinValue then Moves(source, target, Refused)
    else match GetCoin(source, 0)
      case None => Moves(source, target, Thrown)
      case Some(coin) =>
        var (s, t) := ShiftCoin(source, target, coin);
        Move(s, t, n - 1)
  }

  /** Unfolds one completed iteration of the loop. */
  lemma MoveStep(source: Inventory, target: Inventory, n: int)
    requires n > 0 && source.total >= CoinValue && |source.coins| > 0
    ensures var st := ShiftCoin(source, target, source.coins[0]);
      Move(source, target, n) == Move(st.0, st.1, n - 1)
  {
  }

  /** Whatever the outcome, value only changes hands: the two totals keep
      their sum and each side keeps its unbacked part. */
  lemma {:induction false} MoveConservesValue(source: Inventory, target: Inventory, n: int)
    ensures var r := Move(source, target, n);
      && r.source.total + r.target.total == source.total + target.total
      && Slack(r.source) == Slack(source) && Slack(r.target) == Slack(target)
    decreases n
  {
    if n > 0 && source.total >= CoinValue && |source.coins| > 0 {
      var coin := source.coins[0];
      var (s, t) := ShiftCoin(source, target, coin);
      MoveStep(source, target, n);
      assert Value(source.coins) == coin.value + Value(s.coins);
      ValueAppend(target.coins, [coin]);
      assert Value([coin]) == coin.value;
      assert Slack(s) == Slack(source) && Slack(t) == Slack(target);
      MoveConservesValue(s, t, n - 1);
      var r := Move(source, target, n);
      assert r == Move(s, t, n - 1);
      assert r.source.total + r.target.total == source.total + target.total;
    }
  }

  /** Whatever the outcome, coins are neither created nor lost, and coins of
      ten stay coins of ten. */
  lemma {:induction false} MoveConservesCoins(source: Inventory, target: Inventory, n: int)
    ensures var r := Move(source, target, n);
      && multiset(r.source.coins) + multiset(r.target.coins) == multiset(source.coins) + multiset(target.coins)
      && (AllTens(source.coins) && AllTens(target.coins) ==> AllTens(r.source.coins) && AllTens(r.target.coins))
    decreases n
  {
    if n > 0 && source.total >= CoinValue && |source.coins| > 0 {
      var r := Move(source, target, n);
      var coin := source.coins[0];
      var (s, t) := ShiftCoin(source, target, coin);
      MoveStep(source, target, n);
      assert source.coins == [coin] + s.coins;
      assert AllTens(source.coins) && AllTens(target.coins) ==> AllTens(s.coins) && AllTens(t.coins) by {
        if AllTens(source.coins) && AllTens(target.coins) {
          assert forall i :: 0 <= i < |s.coins| ==> s.coins[i] == source.coins[i + 1];
        }
      }
      MoveConservesCoins(s, t, n - 1);
      assert r == Move(s, t, n - 1);
      assert multiset(s.coins) + multiset(t.coins) == multiset(source.coins) + multiset(target.coins);
    }
  }

  /** The same conservation, read from the target's side. */
  lemma MoveConservesCoinsMirrored(source: Inventory, target: Inventory, n: int)
    ensures var r := Move(source, target, n);
      multiset(r.target.coins) + multiset(r.source.coins) == multiset(target.coins) + multiset(source.coins)
  {
    var r := Move(source, target, n);
    MoveConservesCoins(source, target, n);
    assert multiset(r.target.coins) + multiset(r.source.coins) == multiset(r.source.coins) + multiset(r.target.coins);
    assert multiset(target.coins) + multiset(source.coins) == multiset(source.coins) + multiset(target.coins);
  }

  /** The coins moved are a prefix of the source's coins, appended in order
      to the target. */
  lemma {:induction false} MoveShiftsPrefix(source: Inventory, target: Inventory, n: int)
    ensures var r := Move(source, target, n);
      var k := |source.coins| - |r.source.coins|;
      && 0 <= k <= |source.coins|
      && r.source.coins == source.coins[k..]
      && r.target.coins == target.coins + source.coins[..k]
    decreases n
  {
    var r := Move(source, target, n);
    if n > 0 && source.total >= CoinValue && |source.coins| > 0 {
      var coin := source.coins[0];
      var s := Inventory(source.name, source.total - coin.value, source.coins[1..]);
      var t := Inventory(target.name, target.total + coin.value, target.coins + [coin]);
      MoveStep(source, target, n);
      assert r == Move(s, t, n - 1);
      MoveShiftsPrefix(s, t, n - 1);
      SplitAfterFirst(source.coins, target.coins, |s.coins| - |r.source.coins|);
    } else {
      assert source.coins[..0] == [];
      assert source.coins[0..] == source.coins;
    }
  }

  /** Splitting a sequence after `k + 1` elements is taking its first
      element and then splitting the rest after `k`. */
  lemma SplitAfterFirst(sc: seq<Coin>, tc: seq<Coin>, k: int)
    requires 0 < |sc| && 0 <= k < |sc|
    ensures sc[k + 1..] == sc[1..][k..]
    ensures tc + sc[..k + 1] == (tc + [sc[0]]) + sc[1..][..k]
  {
    assert sc[..k + 1] == [sc[0]] + sc[1..][..k];
  }

  /** A completed transfer moved exactly `n` coins (none for `n <= 0`). */
  lemma {:induction false} MoveCompletedCount(source: Inventory, target: Inventory, n: int)
    ensures var r := Move(source, target, n);
      r.outcome == Completed ==> |source.coins| - |r.source.coins| == (if n > 0 then n else 0)
    decreases n
  {
    if n > 0 && source.total >= CoinValue && |source.coins| > 0 {
      var coin := source.coins[0];
      var s := Inventory(source.name, source.total - coin.value, source.coins[1..]);
      var t := Inventory(target.name, target.total + coin.value, target.coins + [coin]);
      MoveStep(source, target, n);
      MoveCompletedCount(s, t, n - 1);
      assert Move(source, target, n) == Move(s, t, n - 1);
    }
  }

  /** Why a transfer stopped early: a refusal leaves the source short of one
      coin's value, and the throwing case only arises with funds but no coin. */
  lemma {:induction false} MoveStopsOnlyWhen(source: Inventory, target: Inventory, n: int)
    ensures var r := Move(source, target, n);
      && (r.outcome == Refused ==> r.source.total < CoinValue)
      && (r.outcome == Thrown ==> r.source.total >= CoinValue && r.source.coins == [])
      && (r.outcome != Completed ==> |source.coins| - |r.source.coins| < n)
    decreases n
  {
    if n > 0 && source.total >= CoinValue && |source.coins| > 0 {
      var (s, t) := ShiftCoin(source, target, source.coins[0]);
      MoveStep(source, target, n);
      MoveStopsOnlyWhen(s, t, n - 1);
      assert Move(source, target, n) == Move(s, t, n - 1);
    }
  }

  /** A source holding only tens and starting with a non-negative total never
      goes negative, because a coin is only taken from at least its value. */
  lemma {:induction false} MoveKeepsSourceNonNegative(source: Inventory, target: Inventory, n: int)
    requires AllTens(source.coins) && source.total >= 0
    ensures Move(source, target, n).source.total >= 0
    decreases n
  {
    if n > 0 && source.total >= CoinValue && |source.coins| > 0 {
      var (s, t) := ShiftCoin(source, target, source.coins[0]);
      assert AllTens(s.coins) by {
        assert forall i :: 0 <= i < |s.coins| ==> s.coins[i] == source.coins[i + 1];
      }
      MoveStep(source, target, n);
      assert s.total >= 0;
      MoveKeepsSourceNonNegative(s, t, n - 1);
      assert Move(source, target, n) == Move(s, t, n - 1);
    }
  }

  /** The target only ever gains: coins of ten are appended to it and their
      value credited. */
  lemma MoveTargetGains(source: Inventory, target: Inventory, n: int)
    requires AllTens(source.coins)
    ensures Move(source, target, n).target.total >= target.total
  {
    var r := Move(source, target, n);
    MoveShiftsPrefix(source, target, n);
    MoveConservesValue(source, target, n);
    var moved := source.coins[..|source.coins| - |r.source.coins|];
    assert AllTens(moved) by {
      assert forall i :: 0 <= i < |moved| ==> moved[i] == source.coins[i];
    }
    ValueAppend(target.coins, moved);
    ValueOfTens(moved);
  }

  /** Inventories of tens with non-negative totals keep non-negative totals
      through a transfer in either direction. */
  lemma TransferKeepsNonNegative(inv: Inventory, dest: Inventory, amount: int)
    requires IsInt32(amount)
    requires AllTens(inv.coins) && AllTens(dest.coins) && inv.total >= 0 && dest.total >= 0
    ensures TransferCoin(inv, dest, amount).inv.total >= 0
    ensures TransferCoin(inv, dest, amount).dest.total >= 0
  {
    var n := JavaAbs(amount);
    if amount < 0 {
      MoveKeepsSourceNonNegative(inv, dest, n);
      MoveTargetGains(inv, dest, n);
    } else {
      MoveKeepsSourceNonNegative(dest, inv, n);
      MoveTargetGains(dest, inv, n);
    }
  }

  /** A source holding only tens with less than ten unbacked has its
      funds backed by coins: it holds a coin exactly when its total reaches a
      coin's value, so the loop never throws and stops only when it runs out
      of coins. */
  lemma {:induction false} MoveFundsOutcome(source: Inventory, target: Inventory, n: int)
    requires AllTens(source.coins) && 0 <= Slack(source) < CoinValue
    requires n >= 0
    ensures var r := Move(source, target, n);
      && (n <= |source.coins| ==> r.outcome == Completed)
      && (n > |source.coins| ==> r.outcome == Refused && r.source.coins == [])
    decreases n
  {
    ValueOfTens(source.coins);
    if n > 0 && |source.coins| > 0 {
      var coin := source.coins[0];
      var s := Inventory(source.name, source.total - coin.value, source.coins[1..]);
      var t := Inventory(target.name, target.total + coin.value, target.coins + [coin]);
      MoveStep(source, target, n);
      assert AllTens(s.coins) by {
        assert forall i :: 0 <= i < |s.coins| ==> s.coins[i] == source.coins[i + 1];
      }
      assert Value(source.coins) == coin.value + Value(s.coins);
      MoveFundsOutcome(s, t, n - 1);
    }
  }

  /** For a source holding only tens with less than ten unbacked, the outcome
      is decided by its funds up front: `n` coins move when `10 * n` fits in
      the total; otherwise every coin moves and the transfer is refused. */
  lemma MoveFunds(source: Inventory, target: Inventory, n: int)
    requires AllTens(source.coins) && 0 <= Slack(source) < CoinValue
    requires n >= 0
    ensures CoinValue * n <= source.total <==> n <= |source.coins|
    ensures var r := Move(source, target, n);
      if n <= |source.coins| then
        && r.outcome == Completed
        && r.source == Inventory(source.name, source.total - CoinValue * n, source.coins[n..])
        && r.target == Inventory(target.name, target.total + CoinValue * n, target.coins + source.coins[..n])
      else
        && r.outcome == Refused
        && r.source == Inventory(source.name, Slack(source), [])
        && r.target == Inventory(target.name, target.total + Value(source.coins), target.coins + source.coins)
  {
    var r := Move(source, target, n);
    ValueOfTens(source.coins);
    MoveFundsOutcome(source, target, n);
    MoveShiftsPrefix(source, target, n);
    MoveCompletedCount(source, target, n);
    MoveConservesValue(source, target, n);
    var k := |source.coins| - |r.source.coins|;
    if n <= |source.coins| {
      assert k == n;
      assert AllTens(r.source.coins) by {
        assert forall i :: 0 <= i < |r.source.coins| ==> r.source.coins[i] == source.coins[n + i];
      }
      ValueOfTens(r.source.coins);
    } else {
      assert k == |source.coins|;
      assert source.coins[..k] == source.coins;
    }
  }

  /** The result of `transferCoin` on two distinct inventories, as seen from
      the inventory it was called on (`inv`) and its argument (`dest`). The
      Java method returns `true` exactly when the outcome is `Completed`. */
  datatype Transfer = Transfer(inv: Inventory, dest: Inventory, outcome: Outcome)

  /** The transfer loop moving up to `n` coins from `source` to `target`,
      reported with `source` in the first place. */
  function Push(source: Inventory, target: Inventory, n: int): (r: Transfer)
    ensures r.inv.name == source.name && r.dest.name == target.name
    ensures n <= 0 ==> r == Transfer(source, target, Completed)
    ensures r.inv.total + r.dest.total == source.total + target.total
    ensures Slack(r.inv) == Slack(source) && Slack(r.dest) == Slack(target)
    ensures multiset(r.inv.coins) + multiset(r.dest.coins) == multiset(source.coins) + multiset(target.coins)
    ensures multiset(r.dest.coins) + multiset(r.inv.coins) == multiset(target.coins) + multiset(source.coins)
    ensures AllTens(source.coins) && AllTens(target.coins) ==> AllTens(r.inv.coins) && AllTens(r.dest.coins)
    ensures var k := |source.coins| - |r.inv.coins|;
      && 0 <= k <= |source.coins|
      && r.inv.coins == source.coins[k..] && r.dest.coins == target.coins + source.coins[..k]
      && (r.outcome == Completed ==> k == (if n > 0 then n else 0))
      && (r.outcome != Completed ==> k < n)
      && (r.outcome == Refused ==> r.inv.total < CoinValue)
      && (r.outcome == Thrown ==> r.inv.total >= CoinValue && r.inv.coins == [])
  {
    MoveConservesValue(source, target, n);
    MoveConservesCoins(source, target, n);
    MoveConservesCoinsMirrored(source, target, n);
    MoveShiftsPrefix(source, target, n);
    MoveCompletedCount(source, target, n);
    MoveStopsOnlyWhen(source, target, n);
    var m := Move(source, target, n);
    Transfer(m.source, m.target, m.outcome)
  }

  /** `inv.transferCoin(dest, amount)` with `inv` and `dest` distinct: a
      negative amount moves coins from `inv` to `dest`, a positive one from
      `dest` to `inv`, one coin per unit of `Math.abs(amount)`. */
  function TransferCoin(inv: Inventory, dest: Inventory, amount: int): (r: Transfer)
    requires IsInt32(amount)
    ensures r.inv.name == inv.name && r.dest.name == dest.name
    ensures amount == 0 ==> r == Transfer(inv, dest, Completed)
    ensures r.inv.total + r.dest.total == inv.total + dest.total
    ensures Slack(r.inv) == Slack(inv) && Slack(r.dest) == Slack(dest)
    ensures multiset(r.inv.coins) + multiset(r.dest.coins) == multiset(inv.coins) + multiset(dest.coins)
    ensures AllTens(inv.coins) && AllTens(dest.coins) ==> AllTens(r.inv.coins) && AllTens(r.dest.coins)
    ensures amount < 0 ==>
      var k := |inv.coins| - |r.inv.coins|;
      && 0 <= k <= |inv.coins|
      && r.inv.coins == inv.coins[k..] && r.dest.coins == dest.coins + inv.coins[..k]
      && (r.outcome == Completed && amount != MinInt32 ==> k == -amount)
      && (r.outcome != Completed ==> k < -amount)
      && (r.outcome == Refused ==> r.inv.total < CoinValue)
      && (r.outcome == Thrown ==> r.inv.total >= CoinValue && r.inv.coins == [])
    ensures amount > 0 ==>
      var k := |dest.coins| - |r.dest.coins|;
      && 0 <= k <= |dest.coins|
      && r.dest.coins == dest.coins[k..] && r.inv.coins == inv.coins + dest.coins[..k]
      && (r.outcome == Completed ==> k == amount)
      && (r.outcome != Completed ==> k < amount)
      && (r.outcome == Refused ==> r.dest.total < CoinValue)
      && (r.outcome == Thrown ==> r.dest.total >= CoinValue && r.dest.coins == [])
  {
    var n := JavaAbs(amount);
    if amount < 0 then Push(inv, dest, n)
    else Mirror(Push(dest, inv, n))
  }

  /** The same transfer seen from the other side. */
  function Mirror(t: Transfer): Transfer {
    Transfer(t.dest, t.inv, t.outcome)
  }

  /** Direction is carried by the sign alone: pulling `amount` coins into
      `inv` is pushing them out of `dest`. */
  lemma TransferDirection(inv: Inventory, dest: Inventory, amount: int)
    requires 0 < amount <= MaxInt32
    ensures TransferCoin(inv, dest, amount) == Mirror(TransferCoin(dest, inv, -amount))
  {
  }

  /** `Math.abs` of the most negative `int` is negative, so the loop runs no
      iteration and the call reports success without moving anything. */
  lemma TransferOfMinInt(inv: Inventory, dest: Inventory)
    ensures TransferCoin(inv, dest, MinInt32) == Transfer(inv, dest, Completed)
  {
  }

  /** Between fully backed inventories a transfer is undone by the opposite
      transfer: pushing `n` coins that `inv` holds to `dest` and pulling `n`
      back restores both, since coins of ten cannot be told apart. */
  lemma TransferThenReturn(inv: Inventory, dest: Inventory, n: int)
    requires Backed(inv) && Backed(dest)
    requires 0 < n <= MaxInt32 && n <= |inv.coins|
    ensures TransferCoin(inv, dest, -n).outcome == Completed
    ensures var t := TransferCoin(inv, dest, -n);
      TransferCoin(t.inv, t.dest, n) == Transfer(inv, dest, Completed)
  {
    MoveFunds(inv, dest, n);
    var out := Move(inv, dest, n);
    var t := TransferCoin(inv, dest, -n);
    assert t == Transfer(out.source, out.target, out.outcome);
    assert AllTens(t.inv.coins) && AllTens(t.dest.coins);
    MoveFunds(t.dest, t.inv, n);
    var home := Move(t.dest, t.inv, n);
    var back := TransferCoin(t.inv, t.dest, n);
    assert back == Transfer(home.target, home.source, home.outcome);
    TensAreInterchangeable(back.inv.coins, inv.coins);
    TensAreInterchangeable(back.dest.coins, dest.coins);
  }

  /** One iteration of the transfer loop on an inventory with itself: the
      total goes down and back up by the coin's value, and the coin moves
      from the front of the children to the back. */
  function RotateCoin(inv: Inventory, coin: Coin): (r: Inventory)
    requires |inv.coins| > 0 && coin == inv.coins[0]
    ensures r.name == inv.name && r.total == inv.total
    ensures r.coins == inv.coins[1..] + [coin]
  {
    var taken := inv.(total := inv.total - coin.value);
    var given := taken.(total := taken.total + coin.value);
    var removed := RemoveActor(given, CoinActor(coin)).0;
    AddActor(removed, CoinActor(coin))
  }

  /** Rotating keeps the same coins and their value, and changes nothing at
      all when every coin is a ten. */
  lemma RotateKeepsCoins(inv: Inventory, coin: Coin)
    requires |inv.coins| > 0 && coin == inv.coins[0]
    ensures multiset(RotateCoin(inv, coin).coins) == multiset(inv.coins)
    ensures Value(RotateCoin(inv, coin).coins) == Value(inv.coins)
    ensures AllTens(inv.coins) ==> RotateCoin(inv, coin) == inv
  {
    var back := RotateCoin(inv, coin);
    assert inv.coins == [coin] + inv.coins[1..];
    ValueAppend(inv.coins[1..], [coin]);
    if AllTens(inv.coins) {
      assert AllTens(back.coins) by {
        assert forall i :: 0 <= i < |back.coins| ==>
          back.coins[i] == (if i < |inv.coins| - 1 then inv.coins[i + 1] else coin);
      }
      TensAreInterchangeable(back.coins, inv.coins);
    }
  }

  /** The transfer loop when source and target are the same inventory. */
  function MoveWithin(inv: Inventory, n: int): (r: (Inventory, Outcome))
    ensures r.0.name == inv.name && r.0.total == inv.total
    ensures n <= 0 ==> r == (inv, Completed)
    ensures n > 0 ==> (r.1 == Refused <==> inv.total < CoinValue)
    ensures n > 0 ==> (r.1 == Thrown <==> inv.total >= CoinValue && inv.coins == [])
    decreases n
  {
    if n <= 0 then (inv, Completed)
    else if inv.total < CoinValue then (inv, Refused)
    else match GetCoin(inv, 0)
      case None => (inv, Thrown)
      case Some(coin) => MoveWithin(RotateCoin(inv, coin), n - 1)
  }

  /** Rotating an inventory's coins through itself keeps the same coins and
      their value, and leaves an inventory of tens exactly as it was. */
  lemma {:induction false} MoveWithinKeepsCoins(inv: Inventory, n: int)
    ensures multiset(MoveWithin(inv, n).0.coins) == multiset(inv.coins)
    ensures Slack(MoveWithin(inv, n).0) == Slack(inv)
    ensures AllTens(inv.coins) ==> MoveWithin(inv, n).0 == inv
    decreases n
  {
    if n > 0 && inv.total >= CoinValue && |inv.coins| > 0 {
      var coin := inv.coins[0];
      assert GetCoin(inv, 0) == Some(coin);
      RotateKeepsCoins(inv, coin);
      MoveWithinKeepsCoins(RotateCoin(inv, coin), n - 1);
    }
  }

  /** `inv.transferCoin(inv, amount)`: the call on an inventory with itself
      as destination. Totals never change; coins only change order. */
  function TransferCoinToSelf(inv: Inventory, amount: int): (r: Transfer)
    requires IsInt32(amount)
    ensures r.inv == r.dest
    ensures r.inv.name == inv.name && r.inv.total == inv.total
    ensures multiset(r.inv.coins) == multiset(inv.coins)
    ensures Slack(r.inv) == Slack(inv)
    ensures amount == 0 || amount == MinInt32 ==> r == Transfer(inv, inv, Completed)
    ensures amount != 0 && amount != MinInt32 ==>
      && (r.outcome == Refused <==> inv.total < CoinValue)
      && (r.outcome == Thrown <==> inv.total >= CoinValue && inv.coins == [])
    ensures AllTens(inv.coins) ==> r.inv == inv
  {
    MoveWithinKeepsCoins(inv, JavaAbs(amount));
    var (after, outcome) := MoveWithin(inv, JavaAbs(amount));
    Transfer(after, after, outcome)
  }
}

=== FILE: java_arith.dfy ===
/** The small pieces of Java semantics the game logic depends on: an optional
    value, the 32-bit `int` range, integer division and `Math.abs` on `int`,
    and the `(int)` cast and `%` operator on `double`. */
module JavaArith {

  const MinInt32: int := -0x8000_0000
  const MaxInt32: int := 0x7fff_ffff

  predicate IsInt32(x: int) {
    MinInt32 <= x <= MaxInt32
  }

  /** `Math.abs(x)` on a Java `int`: the most negative value has no positive
      counterpart and is returned unchanged. */
  function JavaAbs(x: int): (r: int)
    requires IsInt32(x)
    ensures IsInt32(r)
    ensures x != MinInt32 ==> r >= 0 && (r == x || r == -x)
    ensures x == MinInt32 ==> r == x
  {
    if x == MinInt32 then x else if x < 0 then -x else x
  }

  /** Java's `a / d` on `int` for a positive divisor: the quotient is
      truncated toward zero. */
  function JavaDiv(a: int, d: int): (q: int)
    requires d > 0
    ensures a >= 0 ==> q * d <= a < q * d + d
    ensures a < 0 ==> q * d - d < a <= q * d
  {
    if a >= 0 then a / d else -((-a) / d)
  }

  /** The `(int)` cast of a `double`: truncation toward zero. */
  function Trunc(x: real): (i: int)
    ensures x >= 0.0 ==> i as real <= x < i as real + 1.0
    ensures x < 0.0 ==> i as real - 1.0 < x <= i as real
  {
    if x >= 0.0 then x.Floor else -((-x).Floor)
  }

  /** Java's `x % m` on `double` for a positive literal modulus `m`: the
      remainder of truncated division, carrying the sign of the dividend. */
  function FMod(x: real, m: real): (r: real)
    requires m == 1.0 || m == 360.0
    ensures x >= 0.0 ==> 0.0 <= r < m
    ensures x < 0.0 ==> -m < r <= 0.0
    ensures ((x - r) / m).Floor as real == (x - r) / m
  {
    x - m * Trunc(x / m) as real
  }

  /** On non-negative dividends, adding the modulus does not change the
      remainder. */
  lemma FModPeriodic(x: real, m: real)
    requires m == 1.0 || m == 360.0
    requires x >= 0.0
    ensures FMod(x + m, m) == FMod(x, m)
  {
    if m == 1.0 {
      assert Trunc(x + 1.0) == Trunc(x) + 1;
    } else {
      assert (x + 360.0) / 360.0 == x / 360.0 + 1.0;
      assert Trunc((x + 360.0) / 360.0) == Trunc(x / 360.0) + 1;
    }
  }

  /** On non-negative values the remainder by one is the part after the
      integer part. */
  lemma FracOfNonNegative(x: real)
    requires x >= 0.0
    ensures Trunc(x) == x.Floor
    ensures FMod(x, 1.0) == x - x.Floor as real
  {
  }
}

=== FILE: wheel.dfy ===
/** The wheel: a two-state spin machine whose speed decays every frame, and
    the map from the angle it stops at to the value it landed on. Angles,
    speeds and the slowdown factor are exact reals. */
module Wheels {
  import opened Wrappers
  import opened JavaArith
  import opened GameInterface

  /** Slowdown factor a spin starts with. */
  const InitialSlowdown: real := 0.99
  /** How much the factor drops per frame once the wheel is braking. */
  const SlowdownStep: real := 0.01
  /** Below this speed the wheel brakes harder every frame. */
  const BrakeSpeed: real := 10.0
  /** Below this speed the wheel stops and reports its landing. */
  const StopSpeed: real := 0.2
  /** Bounds, both included, of the random speed of a click-started spin. */
  const MinRandomSpeed: int := 500
  const MaxRandomSpeed: int := 1000

  datatype Wheel = Wheel(rotation: real, speed: real, slowdown: real, spinning: bool)

  /** The wheel as constructed: at rest at angle 0. */
  function NewWheel(): (w: Wheel)
    ensures !w.spinning && w == Stop(w)
    ensures w.rotation == 0.0 && w.slowdown == InitialSlowdown
  {
    Wheel(0.0, 0.0, InitialSlowdown, false)
  }

  /** Starts a spin at `rotationSpeed`; a wheel already spinning ignores it. */
  function Spin(w: Wheel, rotationSpeed: int): (r: Wheel)
    ensures w.spinning ==> r == w
    ensures !w.spinning ==> r == Wheel(w.rotation, rotationSpeed as real, InitialSlowdown, true)
  {
    if !w.spinning then w.(spinning := true, speed := rotationSpeed as real, slowdown := InitialSlowdown)
    else w
  }

  /** Spinning again before the wheel has stopped changes nothing. */
  lemma SpinIgnoredWhileSpinning(w: Wheel, first: int, second: int)
    ensures Spin(Spin(w, first), second) == Spin(w, first)
  {
  }

  /** The click-started spin: `draw` stands for the random speed, an integer
      from 500 to 1000 inclusive. */
  function SpinAtRandom(w: Wheel, draw: int): (r: Wheel)
    requires MinRandomSpeed <= draw <= MaxRandomSpeed
    ensures r.spinning
    ensures w.spinning ==> r == w
    ensures !w.spinning ==> r == Wheel(w.rotation, draw as real, InitialSlowdown, true)
    ensures !w.spinning ==> 500.0 <= r.speed <= 1000.0
  {
    Spin(w, draw)
  }

  /** Brings the wheel to rest where it is. */
  function Stop(w: Wheel): (r: Wheel)
    ensures !r.spinning && r.speed == 0.0
    ensures r.rotation == w.rotation && r.slowdown == w.slowdown
  {
    w.(spinning := false, speed := 0.0)
  }

  lemma StopIdempotent(w: Wheel)
    ensures Stop(Stop(w)) == Stop(w)
  {
  }

  /** The value a rotation angle lands on. The angle is reduced modulo 360
      and measured in sectors; the numbered part of a sector comes first and
      the yellow "1" part takes the rest. `None` is the out-of-range array
      index the Java code hits for some negative angles. */
  function GetSpot(rotation: real): (r: Option<int>)
    ensures r.Some? ==> r.value in SpotValues
    ensures r.None? ==> rotation < 0.0
  {
    var rotationAngle := FMod(rotation, 360.0);
    var loc := rotationAngle / SectorAngle;
    if FMod(loc, 1.0) < YellowSpotThreshold then
      var i := Trunc(loc);
      if 0 <= i < |WheelSpots| then Some(WheelSpots[i]) else None
    else Some(1)
  }

  /** For a non-negative angle the sector index is the integer part of the
      angle in sectors and is always a valid index (0 to 12); the numbered
      value is returned when the part after it is below the threshold, and 1
      otherwise. */
  lemma GetSpotOfNonNegative(rotation: real)
    requires rotation >= 0.0
    ensures var loc := FMod(rotation, 360.0) / SectorAngle;
      && 0 <= loc.Floor <= 12
      && GetSpot(rotation) == Some(if loc - loc.Floor as real < YellowSpotThreshold then WheelSpots[loc.Floor] else 1)
  {
    var rotationAngle := FMod(rotation, 360.0);
    var loc := rotationAngle / SectorAngle;
    assert 0.0 <= loc < 12.52;
    FracOfNonNegative(loc);
  }

  /** Every non-negative angle lands on one of the five values the game
      pays out on. */
  lemma GetSpotValues(rotation: real)
    requires rotation >= 0.0
    ensures GetSpot(rotation).Some?
    ensures GetSpot(rotation).value in SpotValues
  {
    GetSpotOfNonNegative(rotation);
    WheelSpotsShape();
  }

  /** At rest at angle 0 the pointer is on the first numbered sector, a 3. */
  lemma GetSpotAtZero()
    ensures GetSpot(0.0) == Some(3)
  {
    GetSpotOfNonNegative(0.0);
  }

  /** A full extra turn lands on the same value. */
  lemma GetSpotPeriodic(rotation: real)
    requires rotation >= 0.0
    ensures GetSpot(rotation + 360.0) == GetSpot(rotation)
  {
    FModPeriodic(rotation, 360.0);
  }

  /** Each of the five values is reachable within the first turn. */
  lemma EveryValueReachable(v: int)
    requires v in SpotValues
    ensures exists rotation :: 0.0 <= rotation < 360.0 && GetSpot(rotation) == Some(v)
  {
    SectorGeometry();
    var rotation :=
      if v == 1 then 4500.0 / 313.0
      else if v == 3 then 0.0
      else if v == 10 then 9000.0 / 313.0
      else if v == 5 then 27000.0 / 313.0
      else 45000.0 / 313.0;
    assert 0.0 <= rotation < 360.0 && GetSpot(rotation) == Some(v);
  }

  /** Some negative angles make the Java code index outside the sector
      table. */
  lemma NegativeAngleFaults()
    ensures GetSpot(-100.0) == None
  {
  }

  /** What one frame reports: nothing, the landed value, or the fault of an
      out-of-range sector index. */
  datatype Report = NoLanding | Landed(value: int) | SpotFault

  datatype Tick = Tick(wheel: Wheel, report: Report)

  /** One frame of `delta` seconds. An idle wheel is left alone. A spinning
      wheel turns by its speed times `delta`, then its speed is multiplied by
      the slowdown factor; below the brake speed the factor drops, and below
      the stop speed the wheel stops and reports the value it landed on. */
  function Act(w: Wheel, delta: real): (r: Tick)
    ensures !w.spinning ==> r == Tick(w, NoLanding)
    ensures w.spinning ==> r.wheel.rotation == w.rotation + w.speed * delta
    ensures w.spinning ==>
      r.wheel.slowdown == (if w.speed * w.slowdown < BrakeSpeed then w.slowdown - SlowdownStep else w.slowdown)
    ensures r.report != NoLanding <==> w.spinning && w.speed * w.slowdown < StopSpeed
    ensures r.report != NoLanding ==> r.wheel == Stop(r.wheel) && r.wheel.speed == 0.0
    ensures r.report != NoLanding ==> r.report == (match GetSpot(r.wheel.rotation)
      case Some(v) => Landed(v)
      case None => SpotFault)
    ensures w.spinning && r.report == NoLanding ==> r.wheel.spinning && r.wheel.speed == w.speed * w.slowdown
  {
    if !w.spinning then Tick(w, NoLanding)
    else
      var rotation := w.rotation + w.speed * delta;
      var speed := w.speed * w.slowdown;
      if speed < BrakeSpeed then
        var slowdown := w.slowdown - SlowdownStep;
        if speed < StopSpeed then
          var stopped := Stop(Wheel(rotation, speed, slowdown, true));
          var report := match GetSpot(rotation)
            case Some(v) => Landed(v)
            case None => SpotFault;
          Tick(stopped, report)
        else Tick(Wheel(rotation, speed, slowdown, true), NoLanding)
      else Tick(Wheel(rotation, speed, w.slowdown, true), NoLanding)
  }

  /** The state every reachable wheel is in: never turned backwards, never
      moving backwards, at rest exactly when not spinning, and with a
      slowdown factor that never exceeds its starting value during a spin. */
  predicate WheelSound(w: Wheel) {
    && w.rotation >= 0.0
    && w.speed >= 0.0
    && (!w.spinning ==> w.speed == 0.0)
    && (w.spinning ==> w.slowdown <= InitialSlowdown)
  }

  lemma NewWheelSound()
    ensures WheelSound(NewWheel())
  {
  }

  /** Spins started at a non-negative speed and frames of non-negative
      length keep the wheel sound, and a sound wheel never faults. */
  lemma SoundnessPreserved(w: Wheel, rotationSpeed: int, delta: real)
    requires WheelSound(w)
    requires rotationSpeed >= 0 && delta >= 0.0
    ensures WheelSound(Spin(w, rotationSpeed))
    ensures WheelSound(Stop(w))
    ensures WheelSound(Act(w, delta).wheel)
    ensures Act(w, delta).report != SpotFault
  {
    if w.spinning {
      FrameKeepsSound(w, delta);
    }
  }

  /** One frame of a sound spinning wheel: it turns forwards, and if it
      stops it stops at a non-negative angle, where a spot always exists. */
  lemma FrameKeepsSound(w: Wheel, delta: real)
    requires WheelSound(w) && w.spinning && delta >= 0.0
    ensures WheelSound(Act(w, delta).wheel)
    ensures Act(w, delta).report != SpotFault
  {
    assert w.speed * delta >= 0.0;
    var r := Act(w, delta);
    if w.speed * w.slowdown < StopSpeed {
      GetSpotValues(r.wheel.rotation);
    }
  }

  /** Landings reported over a run of frames with no spin in between. */
  function Landings(w: Wheel, deltas: seq<real>): nat
    decreases |deltas|
  {
    if |deltas| == 0 then 0
    else
      var t := Act(w, deltas[0]);
      (if t.report != NoLanding then 1 else 0) + Landings(t.wheel, deltas[1..])
  }

  lemma {:induction false} IdleNeverLands(w: Wheel, deltas: seq<real>)
    requires !w.spinning
    ensures Landings(w, deltas) == 0
    decreases |deltas|
  {
    if |deltas| > 0 {
      IdleNeverLands(w, deltas[1..]);
    }
  }

  /** A spin is reported at most once: the frame that reports it also stops
      the wheel, and a stopped wheel reports nothing until the next spin. */
  lemma {:induction false} LandsAtMostOnce(w: Wheel, deltas: seq<real>)
    ensures Landings(w, deltas) <= 1
    decreases |deltas|
  {
    if |deltas| > 0 {
      var t := Act(w, deltas[0]);
      if t.report != NoLanding {
        IdleNeverLands(t.wheel, deltas[1..]);
      } else {
        LandsAtMostOnce(t.wheel, deltas[1..]);
      }
    }
  }

  /** The wheel after `k` frames of the same length. */
  function Frames(w: Wheel, delta: real, k: nat): Wheel
    decreases k
  {
    if k == 0 then w else Frames(Act(w, delta).wheel, delta, k - 1)
  }

  /** A bound on the frames still to come: while above the brake speed the
      speed drops by at least a tenth per frame; below it the factor drops by
      a hundredth per frame until it turns negative and stops the wheel. */
  function StopMeasure(w: Wheel): nat
    requires w.speed >= 0.0
  {
    if w.speed >= BrakeSpeed then 101 + (10.0 * w.speed).Floor
    else if w.slowdown < 0.0 then 0
    else (100.0 * w.slowdown).Floor + 1
  }

  lemma ScaledBelow(speed: real, factor: real)
    requires speed >= 0.0 && factor <= InitialSlowdown
    ensures factor <= 0.0 ==> speed * factor <= 0.0
    ensures speed * factor <= InitialSlowdown * speed
    ensures speed < BrakeSpeed ==> speed * factor < BrakeSpeed
  {
    if factor <= 0.0 {
      assert speed * (-factor) >= 0.0;
      assert speed * factor == -(speed * (-factor));
    }
    assert (InitialSlowdown - factor) * speed >= 0.0;
    assert InitialSlowdown * speed - speed * factor == (InitialSlowdown - factor) * speed;
  }

  /** The arithmetic of one decaying frame whose new speed `speed * factor`
      is still at least the stop speed. */
  lemma DecayStep(speed: real, factor: real)
    requires speed >= 0.0 && factor <= InitialSlowdown
    requires speed * factor >= StopSpeed
    ensures factor > 0.0
    ensures speed >= BrakeSpeed ==> 10.0 * (speed * factor) <= 10.0 * speed - 1.0
    ensures speed < BrakeSpeed ==> speed * factor < BrakeSpeed
  {
    ScaledBelow(speed, factor);
  }

  /** A frame that leaves the wheel spinning lowers the measure and keeps
      the conditions of a decaying spin. */
  lemma FrameLowersMeasure(w: Wheel, delta: real)
    requires w.spinning && w.speed >= 0.0 && w.slowdown <= InitialSlowdown
    requires Act(w, delta).wheel.spinning
    ensures var next := Act(w, delta).wheel;
      && next.speed >= 0.0 && next.slowdown <= InitialSlowdown
      && StopMeasure(next) < StopMeasure(w)
  {
    var next := Act(w, delta).wheel;
    assert next.speed == w.speed * w.slowdown;
    DecayStep(w.speed, w.slowdown);
    if w.speed < BrakeSpeed {
      assert next.slowdown == w.slowdown - SlowdownStep;
      assert (100.0 * next.slowdown).Floor == (100.0 * w.slowdown).Floor - 1;
    }
  }

  /** However fast it starts, a spinning wheel stops after finitely many
      frames of any fixed length. */
  lemma {:induction false} EventuallyStops(w: Wheel, delta: real)
    requires w.spinning && w.speed >= 0.0 && w.slowdown <= InitialSlowdown
    ensures exists k: nat :: !Frames(w, delta, k).spinning
    decreases StopMeasure(w)
  {
    var next := Act(w, delta).wheel;
    assert Frames(w, delta, 1) == next;
    if next.spinning {
      FrameLowersMeasure(w, delta);
      EventuallyStops(next, delta);
      var k: nat :| !Frames(next, delta, k).spinning;
      assert Frames(w, delta, k + 1) == Frames(next, delta, k);
    }
  }
}

=== FILE: wrappers.dfy ===
/** Optional values, used wherever the Java code would throw instead of
    returning a result. */
module Wrappers {

  datatype Option<T> = None | Some(value: T)
}
